=== FILE: README.md ===
# Document portal core in Dafny

This project models the core of a small document portal for a maintenance company. An
administrator uploads work reports and delivery notes. Each file is assigned to a client by
matching the client name an external analysis extracted from it. Clients sign in to see their
own documents, plus the documents of any clients they have been granted, together with simple
statistics. The model has three parts:

- `store.dfy` (module `Store`): the application store of `App.tsx`, as the class
  `PortalStore`. Its fields are the client list, the document list, the authentication state
  and the login error. Its methods are login, logout, add-client, delete-client,
  set-permissions and add-document. The module also holds the password generator and the rule
  that decides which documents a signed-in client sees. The class invariant `Valid` says that
  client ids are unique, client names are distinct ignoring case, and document ids are unique.
- `admin.dfy` (module `Admin`): the administrator's dashboard,
  `components/AdminDashboard.tsx`. It covers:
  - the name matcher and the guard on creating a client;
  - the upload loop, both as a method on the store and as the pure function `AssignAll` the
    method is proved against;
  - manual client creation, the permission toggle, the permission candidates, the contract
    label and the per-client document count.
- `client_view.dfy` (module `ClientView`): the client's dashboard,
  `components/ClientDashboard.tsx`. It covers:
  - the statistics loop, proved against fold functions;
  - the search filter, the owner-name lookup and the "shared" flag.

Supporting modules:

- `wrappers.dfy`: `Option`.
- `text.dfy`: ASCII lower case, substring search, and JavaScript-style `trim`.
- `seqs.dfy`: filter, find-first, reverse and distinctness, with their lemmas.
- `types.dfy`: the records of `types.ts`.

The model follows the code in three places where a reader might expect something else:

- The empty-name and sentinel guard ("Desconocido", "Error de lectura") applies only to
  creating a client, never to matching. An empty extracted name is assigned to the first client
  (`Admin.EmptyNameMatchesFirst`). "Desconocido" is assigned to the first client whose lower-case
  name occurs inside, or contains, "desconocido", such as a leading client named "Do"
  (`Admin.UnrecognisedNameMatchesShortName`).
- Deleting a client does not remove its id from other clients' permission lists. A client that
  had been granted the deleted client keeps seeing that client's documents
  (`Store.DeleteKeepsOtherViews`).
- The store does not strip a client's own id from its permission list
  (`Store.PermissionsGrantExactly`). Only the permission editor keeps it out, because it never
  offers the edited client (`Admin.ToggleCandidateKeepsSelfOut`).

## Model

| member | source | states |
|---|---|---|
| Store.PasswordFrom | App.tsx:8-15 | a generated password has exactly 10 characters, each from the 65-character alphabet a-z, A-Z, 0-9, "!@#" |
| Store.GeneratePassword | App.tsx:8-15 | the character-appending loop returns 10 alphabet characters, one per random draw, `floor(x * 65)` selecting each |
| Store.DrawIndex | App.tsx:12 | `Math.floor(Math.random() * chars.length)` is always a valid alphabet position |
| Store.FindByName | App.tsx:47 | the result is the first client whose name equals the identifier ignoring case, or none when no client's name does |
| Store.FindById | App.tsx:187 | the result is the first client with the id, or none when no client has it |
| Store.Authenticate | App.tsx:36-58 | the admin session happens iff the lower-cased identifier is "admin" and the password is "admin123", whatever the client list holds; a client session happens iff the credential is not the admin one and the first client named like the identifier has exactly that password |
| Store.ClientLoginIffCredentialsMatch | App.tsx:47-48 | with names distinct ignoring case, a client signs in iff some client has that name ignoring case and exactly that password |
| Store.LoginStampsOnlyThatClient | App.tsx:50-51 | with unique ids, the login stamp changes only the signed-in client's lastLogin and leaves every other client as it was |
| Store.RemoveClient | App.tsx:83 | after a delete, a client is listed iff it was listed before and has a different id, and the list never grows |
| Store.RemoveClientKeepsOrder | App.tsx:83 | deletion keeps the remaining clients in their order: deleting from a concatenation deletes from each part |
| Store.StampLogin | App.tsx:51 | definition: every client with the signed-in id gets the login time, all others are kept (`LoginStampsOnlyThatClient` states its effect) |
| Store.SetPermissions | App.tsx:90-92 | definition: every client with the id gets the new permission list, all others are kept (`PermissionsGrantExactly` and `UnknownIdPermissionsNoOp` state its effect) |
| Store.Granted | App.tsx:187-190 | definition: the permission list of the first client with the viewer's id, empty when there is none |
| Store.UnknownIdPermissionsNoOp | App.tsx:89-93 | a permission update for an id no client has leaves the client list unchanged |
| Store.PermissionsGrantExactly | App.tsx:89-93 | after an update, the edited client's grants are exactly the new list, even one holding its own id; every other viewer's grants are unchanged |
| Store.ViewableIds | App.tsx:190 | the visible owner ids are the viewer's own id and the ids in its own permission list |
| Store.ViewableDocs | App.tsx:189-191 | a document is visible iff it is stored and its owner is the viewer or an id the viewer has been granted |
| Store.NoTransitiveVisibility | App.tsx:189-191 | if A has been granted only B, a document of a third client C is never visible to A, whatever B has been granted |
| Store.GrantedAfterRemove | App.tsx:82-87 | deleting a client leaves every other viewer's grants exactly as they were |
| Store.DeleteKeepsOtherViews | App.tsx:82-87 | deletion does not cascade: every other viewer sees exactly the documents it saw before, including the deleted client's documents if it had been granted them |
| Store.AddDocumentView | App.tsx:95-97 | a prepended document heads a viewer's list when the viewer may see it; the rest of the list keeps its contents and order |
| Store.AddedClientFoundAgain | App.tsx:67-80 | once a client has been appended, adding any case variant of its name finds that client |
| Store.PortalStore.constructor | App.tsx:17-27 | the initial store holds the two demonstration clients with ids "1" and "2" and generated passwords, no documents, nobody signed in, and satisfies the invariant |
| Store.PortalStore.Login | App.tsx:36-58 | admin credential: admin session, clients unchanged; matching client: client session with that client's id and a lastLogin stamp; otherwise: the fixed error message and nothing else changes; documents never change; the invariant holds |
| Store.PortalStore.Logout | App.tsx:60-65 | signs out and clears the error; clients and documents are unchanged |
| Store.PortalStore.AddClient | App.tsx:67-80 | if some client's name equals the name ignoring case, returns it and changes nothing; otherwise appends exactly one client with the name as given, the fresh id, a generated password and no permissions; the invariant holds |
| Store.PortalStore.DeleteClient | App.tsx:82-87 | removes every client with the id; documents, session and invariant are kept |
| Store.PortalStore.UpdatePermissions | App.tsx:89-93 | replaces the permission list of the client with the id and changes nothing else |
| Store.PortalStore.AddDocument | App.tsx:95-97 | the documents become the new one followed by the old list; nothing else changes |
| Text.Lower | components/AdminDashboard.tsx:98-99 | definition: ASCII `toLowerCase()`, each character lower-cased in place; proved: the result holds no upper-case ASCII letter |
| Text.LowerIdempotent | App.tsx:47 | lower-casing twice equals lower-casing once, so the case-insensitive name comparisons of login, add-client and matching are unaffected by names that were already lower-cased |
| Text.Contains | components/AdminDashboard.tsx:98-99 | `includes`: `t` occurs in `s` at some position (definition; `ContainsEmpty` and `ContainsSelf` give the empty and whole-string cases) |
| Text.Trim | components/AdminDashboard.tsx:148-149 | `trim()` is a block `s[a..b]` with only whitespace outside it; it starts and ends on non-whitespace, and is empty iff the input is all whitespace |
| Admin.Matches | components/AdminDashboard.tsx:97-99 | definition: a client matches iff its lower-case name contains the lower-case extracted name or occurs inside it |
| Admin.MayCreateClient | components/AdminDashboard.tsx:103 | definition: a new client may be created only for a name that is non-empty, not "Desconocido" and not "Error de lectura" |
| Admin.NewDocument | components/AdminDashboard.tsx:109-118 | definition: the new document carries the fresh id, the owner's id, the file's name and payload, the upload time, the MIME type or PDF, status assigned and the analysis data (`AssignOutcome` states when it is built) |
| Admin.FindMatch | components/AdminDashboard.tsx:97-100 | the target is the first client in list order whose lower-case name contains the lower-case extracted name or is contained in it; none only when no client matches |
| Admin.EmptyNameMatchesFirst | components/AdminDashboard.tsx:97-103 | an empty extracted name matches the first client of a non-empty list: the guard does not apply to matching |
| Admin.UnrecognisedNameMatchesShortName | components/AdminDashboard.tsx:97-103 | the "not recognised" sentinel is assigned to a client named "Do" |
| Admin.NameMatchImpliesMatch | components/AdminDashboard.tsx:97-104 | a client whose name equals the extracted name ignoring case is always matched, so add-client is only reached for names no client has |
| Admin.Assign | components/AdminDashboard.tsx:97-124 | one file grows the client list by at most one client, always at the end, carrying the file's fresh client id, and its document carries the fresh document id |
| Admin.AssignOutcome | components/AdminDashboard.tsx:103-124 | a document is recorded iff the file was read and a client matched or the name may become a client; it carries the file's name, payload and the analysis data, marked assigned; it goes to the first matching client, or to a new client named as extracted; a client is created only for an unmatched name that passes the guard |
| Admin.FailedAnalysisNeverCreates | services/geminiService.ts:80-91 | a file whose analysis failed and fell back to "Error de lectura" never creates a client; it is recorded iff it was read and some client matches that name |
| Admin.ProcessFile | components/AdminDashboard.tsx:91-128 | the store's clients and the returned document are those `Assign` gives; the document, if any, is prepended to the store; a file that cannot be read changes nothing; the invariant holds |
| Admin.FreshAfterAssign | components/AdminDashboard.tsx:104-110 | after one file uses its fresh ids, the ids left for the other files are still unused and distinct |
| Admin.AssignAll | components/AdminDashboard.tsx:85-129 | assigning a batch only appends clients, and records at most one document per file |
| Admin.ProvenanceExtend | components/AdminDashboard.tsx:87-129 | assigning one more file keeps every earlier document traced to its file and owned by a matching client |
| Admin.ProvenanceUpTo | components/AdminDashboard.tsx:87-129 | after any number of files, each document comes from one readable file, in file order, and every readable file whose name may become a client has a document |
| Admin.BatchProvenance | components/AdminDashboard.tsx:85-132 | for a whole batch, the documents processed come one each from distinct readable files, in file order; each carries its file's name, payload and analysis data and belongs to a client whose name matches; every readable file whose name may become a client has a document, whatever happened to the files before it |
| Admin.AssignAllExtend | components/AdminDashboard.tsx:87-129 | proof step: one more file extends the batch by exactly that file's assignment |
| Admin.BatchStepFresh | components/AdminDashboard.tsx:87-129 | at file i the ids and draws it uses are fresh and valid, and the rest stay fresh after it |
| Admin.NewestFirst | components/AdminDashboard.tsx:119-120 | prepending each processed document keeps the store's list equal to the processed documents reversed, ahead of the documents it had |
| Admin.UploadStart | components/AdminDashboard.tsx:85-87 | before the first file the loop's facts hold with nothing processed |
| Admin.UploadDone | components/AdminDashboard.tsx:129-132 | after the last file the store holds the outcome of assigning the whole batch |
| Admin.UploadNext | components/AdminDashboard.tsx:88-128 | processing file i moves every loop fact to file i + 1 and keeps the invariant |
| Admin.UploadFiles | components/AdminDashboard.tsx:78-137 | the clients and the documents processed are exactly those of `AssignAll`; the store's documents are the processed ones, newest first, ahead of the old ones; at most one document per file; the session is untouched and the invariant holds |
| Admin.ManualAddClient | components/AdminDashboard.tsx:146-152 | nothing is added iff the name is all whitespace; otherwise add-client runs with the trimmed name, returning an existing client with that name or appending a new one; documents, session and login error are kept |
| Admin.TogglePermission | components/AdminDashboard.tsx:179-187 | the target id is present afterwards iff it was absent before; every other id keeps its membership; an absent id is appended at the end |
| Admin.ToggleTwiceRestores | components/AdminDashboard.tsx:179-187 | toggling an absent id twice gives back the original list |
| Admin.PermissionCandidates | components/AdminDashboard.tsx:525 | the editor offers a client iff it is listed and is not the client being edited, and never more clients than there are |
| Admin.CandidatesAllButEditor | components/AdminDashboard.tsx:525 | with unique ids, the editor offers exactly one client fewer than there are |
| Admin.ToggleCandidateKeepsSelfOut | components/AdminDashboard.tsx:525-528 | when the edited client's own id is not in its list, toggling any offered client never puts it there |
| Admin.ContractLabel | components/AdminDashboard.tsx:60-67 | "pack_horas" shows "Pack por horas" and "mensual" shows "Mensual"; the label is one of three, and it is "Sin contrato" iff the type is neither of those two, a missing type included |
| Admin.DocCount | components/AdminDashboard.tsx:347 | a client's document count never exceeds the number of documents |
| Admin.DocCountAfterAdd | components/AdminDashboard.tsx:347 | adding a document raises its owner's count by one and leaves every other count unchanged |
| ClientView.Search | components/ClientDashboard.tsx:16-18 | a document is in the result iff it is listed and its lower-case file name contains the lower-case term, and the result is never longer than the list (with `SearchKeepsOrder`, a one-document search gives that document or nothing, which fixes the whole result as the in-order matching subsequence) |
| ClientView.EmptySearchShowsAll | components/ClientDashboard.tsx:16-18 | an empty search term shows every document, in order |
| ClientView.SearchKeepsOrder | components/ClientDashboard.tsx:16-18 | searching a concatenation searches each part and keeps their order |
| ClientView.ClientName | components/ClientDashboard.tsx:30-32 | the name shown is never empty; it is "Desconocido" when no client has the id or when the first client with the id has an empty name, and otherwise that client's name |
| ClientView.ClientNameOfMember | components/ClientDashboard.tsx:30-32 | with unique ids, every client with a non-empty name is shown under its own name |
| ClientView.SharedDocumentIsGranted | components/ClientDashboard.tsx:131 | a shared document in a client's list belongs to a client it has been granted |
| ClientView.IsShared | components/ClientDashboard.tsx:131 | definition: a document is shared iff its owner is not the signed-in client (`SharedDocumentIsGranted` states what that implies) |
| ClientView.HoursOf | components/ClientDashboard.tsx:41-43 | definition: a document's hours, zero when it has no data or no hours |
| ClientView.TotalHours | components/ClientDashboard.tsx:40-43 | definition: the sum of every document's hours (its properties are the concatenation, order and no-data lemmas below) |
| ClientView.MaterialLines | components/ClientDashboard.tsx:41-52 | definition: the material lines of every document with data, in document order |
| ClientView.ResolvedCount | components/ClientDashboard.tsx:46-48 | the resolved count never exceeds the number of documents |
| ClientView.ResolvedCountCountsResolved | components/ClientDashboard.tsx:41-48 | the resolved count is the number of documents that have data marked resolved |
| ClientView.TotalHoursConcat | components/ClientDashboard.tsx:40-43 | total hours add up over a concatenation |
| ClientView.ResolvedCountConcat | components/ClientDashboard.tsx:46-48 | resolved counts add up over a concatenation |
| ClientView.MaterialLinesConcat | components/ClientDashboard.tsx:51-55 | the material lines of a concatenation are those of each part, in order |
| ClientView.DocumentWithoutDataIgnored | components/ClientDashboard.tsx:41 | a document without data changes no statistic, wherever it stands |
| ClientView.TotalHoursIgnoresOrder | components/ClientDashboard.tsx:40-43 | total hours do not depend on the order of the documents |
| ClientView.ResolvedCountIgnoresOrder | components/ClientDashboard.tsx:46-48 | the resolved count does not depend on the order of the documents |
| ClientView.IndexOfName | components/ClientDashboard.tsx:53 | the map lookup finds the first entry with the name, or none when no entry has it |
| ClientView.UnitsOf | components/ClientDashboard.tsx:53 | definition: `get(name)`, defaulting to zero: the units of the entry for the name, zero when there is none |
| ClientView.SetUnits | components/ClientDashboard.tsx:54 | definition: `set` overwrites the entry for the name in place, or appends a new entry last |
| ClientView.AddLine | components/ClientDashboard.tsx:53-54 | definition: one get/set step for a material line (`UnitsOfAfterAdd` and `NamesAfterAdd` state its effect) |
| ClientView.Tally | components/ClientDashboard.tsx:52-55 | definition: the map after every line is added in order (`TallyUnits`, `TallyNames`, `TallyEntryUnits` and `TallyCount` state its content) |
| ClientView.UnitsOfAfterAdd | components/ClientDashboard.tsx:53-54 | adding a line raises its own name's units by its units and leaves every other name's units unchanged |
| ClientView.NamesAfterAdd | components/ClientDashboard.tsx:53-54 | `set` on a known name keeps the entries' names in place; on a new name it appends that name last |
| ClientView.TallyUnits | components/ClientDashboard.tsx:51-55 | the map's value for any name is the sum of the units of every line with that name |
| ClientView.AddLineKeepsOrder | components/ClientDashboard.tsx:53-54 | adding a line keeps the map's names distinct, equal to the names seen so far, and in first-seen order |
| ClientView.TallyNames | components/ClientDashboard.tsx:38-63 | the entries' names are pairwise distinct, are exactly the material names of the lines, and follow the order in which each was first seen |
| ClientView.TallyEntryUnits | components/ClientDashboard.tsx:51-63 | each entry's units are the sum over every material line with its name |
| ClientView.TallyCount | components/ClientDashboard.tsx:63 | the number of entries equals the number of distinct material names |
| ClientView.TallySnoc | components/ClientDashboard.tsx:52-55 | proof step: tallying one more line adds it to the map of the lines before it |
| ClientView.TallyConcat | components/ClientDashboard.tsx:51-55 | tallying a concatenation continues from the map of its first part |
| ClientView.TallyInto | components/ClientDashboard.tsx:52-55 | the inner get/set loop leaves the map equal to adding the document's lines in order |
| ClientView.ComputeStats | components/ClientDashboard.tsx:35-64 | the reduction returns exactly the total hours, the resolved count and the material map the fold functions define, so the properties proved of those hold of its results |

## Left out

- The external document analysis (`services/geminiService.ts`), a network call. Each file's
  analysis result is an input. Its failure fallback is the constant `FailedAnalysis`, whose effect
  `Admin.FailedAnalysisNeverCreates` states.
- Reading a file into base64 (`fileToBase64`). A read that throws is modelled as a file with no
  content, which the loop skips.
- `crypto.randomUUID`, `Math.random` and `new Date().toISOString()`. The model takes them as
  parameters:
  - fresh, pairwise distinct ids, required unused;
  - draws in [0, 1);
  - timestamp strings.
- React closure staleness. In the source, the upload handler and `handleAddClient` read the
  client list captured at render time, so within one upload batch a client created for an
  earlier file is not visible to later files. Two files naming the same new client therefore
  create two clients. The model runs the batch against a sequential store, in which each file
  sees the list the previous file left.
- Batched `setState`. Each handler's updates are applied in program order.
- Status messages, the processing spinner, console output, `setTimeout`, the file input reset,
  `window.confirm` before a delete, password visibility, the modals, JSX and `Layout`, and the
  download link. These are presentation only.
- `savePermissions` is not modelled separately. It only passes the edited list to
  `UpdatePermissions`.
- Client editing. `saveEditedClient` calls `onEditClient`, which `App.tsx` never supplies, and
  `Client` has no contract type. `ContractLabel` therefore takes an optional string, and
  `getContractBadgeColor` is presentation.
- `index.tsx`, the mount entry point.
- Text.Lower: `toLowerCase` is modelled as ASCII lower case. Non-ASCII letters such as "É" are
  not folded.
- Text.Trim: only the common whitespace characters are stripped. The rarer Unicode space
  separators that JavaScript's `trim` also removes are kept.
- Hours and units are reals, not IEEE doubles: no rounding, NaN or infinities. `x || 0` is
  modelled as "absent means 0".
- Fields the analysis may omit: `hours` and `materials` are optional, and a missing
  `viewableClientIds` is the empty list.
- The client `email` field is carried but never set, as in the source.

=== FILE: admin.dfy ===
/** The administrator's dashboard (components/AdminDashboard.tsx): assigning uploaded documents
    to clients, adding clients by hand, editing a client's permission list, and the figures the
    client table shows. */
module Admin {
  import opened Wrappers
  import opened Types
  import opened Text
  import opened Seqs
  import opened Store

  // ---------------------------------------------------------------- matching

  /** The client's name contains the extracted name, or the extracted name contains the
      client's name, both compared in lower case. */
  predicate Matches(c: Client, name: string) {
    Contains(Lower(c.name), Lower(name)) || Contains(Lower(name), Lower(c.name))
  }

  /** The client an extracted name is assigned to: the first one, in list order, that matches. */
  function FindMatch(clients: seq<Client>, name: string): (r: Option<nat>)
    ensures r.Some? ==> (r.value < |clients| && Matches(clients[r.value], name)
                         && forall j :: 0 <= j < r.value ==> !Matches(clients[j], name))
    ensures r.None? ==> forall j :: 0 <= j < |clients| ==> !Matches(clients[j], name)
  {
    FindFirst(clients, (c: Client) => Matches(c, name))
  }

  /** A client is created for an unmatched name only when the name is non-empty and is neither
      of the two names the analysis uses for "not recognised" and "could not read". */
  predicate MayCreateClient(name: string) {
    name != "" && name != UnknownName && name != ReadErrorName
  }

  /** The guard does not apply to matching: an empty extracted name matches the first client,
      since every name contains the empty string. */
  lemma EmptyNameMatchesFirst(clients: seq<Client>)
    requires |clients| > 0
    ensures FindMatch(clients, "") == Some(0)
  {
    ContainsEmpty(Lower(clients[0].name));
    assert Matches(clients[0], "");
  }

  /** The guard does not apply to matching: the "not recognised" name is assigned to a client
      called "Do", because "desconocido" contains "do". */
  lemma UnrecognisedNameMatchesShortName(c: Client, others: seq<Client>)
    requires c.name == "Do"
    ensures FindMatch([c] + others, UnknownName) == Some(0)
  {
    var lowered := Lower(UnknownName);
    assert lowered == "desconocido";
    assert Lower(c.name) == "do";
    assert lowered[9..11] == "do";
    assert OccursAt(lowered, "do", 9);
    assert Matches(([c] + others)[0], UnknownName);
  }

  /** A client whose name equals the extracted name ignoring case is always matched, so when
      nothing matches the add-client call that follows always creates a client. */
  lemma NameMatchImpliesMatch(clients: seq<Client>, name: string)
    requires FindByName(clients, name).Some?
    ensures FindMatch(clients, name).Some?
  {
    var k := FindByName(clients, name).value;
    ContainsSelf(Lower(name));
    assert Matches(clients[k], name);
  }

  // ---------------------------------------------------------------- uploading

  /** One selected file: `content` is its base64 payload, or `None` when reading it failed. */
  datatype UploadedFile = UploadedFile(name: string, mimeType: string, content: Option<string>)

  /** What the environment supplies while one file is processed: the ids `crypto.randomUUID`
      returns for a new client and the new document, the `Math.random` values for a new
      client's password, and the upload timestamp. */
  datatype UploadContext = UploadContext(clientId: string, documentId: string, random: seq<real>, uploadDate: string)

  /** The file's MIME type, or PDF when none is reported. */
  function MimeOrDefault(mimeType: string): string {
    if mimeType == "" then "application/pdf" else mimeType
  }

  /** The document record built for a file assigned to the client with id `owner`. */
  function NewDocument(file: UploadedFile, analysis: AnalysisResult, owner: string, ctx: UploadContext): DocumentFile
    requires file.content.Some?
  {
    DocumentFile(ctx.documentId, owner, file.name, ctx.uploadDate, file.content.value,
                 MimeOrDefault(file.mimeType), Assigned, Some(analysis.data))
  }

  /** The outcome of one file: the client list afterwards and the document recorded, if any. */
  datatype Assignment = Assignment(clients: seq<Client>, doc: Option<DocumentFile>)

  /** The document is owned by a listed client whose name matches `name`. */
  ghost predicate OwnedByMatch(clients: seq<Client>, doc: DocumentFile, name: string) {
    exists k :: 0 <= k < |clients| && clients[k].id == doc.clientId && Matches(clients[k], name)
  }

  /** One file of an upload: a file that cannot be read changes nothing; otherwise the document
      goes to the first client that matches the extracted name, or, when none does and the name
      may become a client, to a client created under that name; otherwise nothing is recorded. */
  function Assign(clients: seq<Client>, file: UploadedFile, analysis: AnalysisResult, ctx: UploadContext): (r: Assignment)
    requires IsPasswordDraw(ctx.random)
    ensures clients <= r.clients && |r.clients| <= |clients| + 1
    ensures |r.clients| > |clients| ==> r.clients[|clients|].id == ctx.clientId
    ensures r.doc.Some? ==> r.doc.value.id == ctx.documentId
  {
    if file.content.None? then Assignment(clients, None)
    else
      match FindMatch(clients, analysis.clientName)
      case Some(k) => Assignment(clients, Some(NewDocument(file, analysis, clients[k].id, ctx)))
      case None =>
        if MayCreateClient(analysis.clientName) then
          Assignment(clients + [Client(ctx.clientId, analysis.clientName, PasswordFrom(ctx.random), None, [], None)],
                     Some(NewDocument(file, analysis, ctx.clientId, ctx)))
        else Assignment(clients, None)
  }

  /** A readable file always yields a document when its extracted name may become a client, and
      otherwise exactly when some client matches; the document carries the file's name, payload
      and extracted data, marked assigned, and its owner is a client whose name matches. A client
      is created only for an unmatched name that may become one. */
  lemma AssignOutcome(clients: seq<Client>, file: UploadedFile, analysis: AnalysisResult, ctx: UploadContext)
    requires IsPasswordDraw(ctx.random)
    ensures var r := Assign(clients, file, analysis, ctx);
      && (r.doc.Some? <==> file.content.Some? && (FindMatch(clients, analysis.clientName).Some? || MayCreateClient(analysis.clientName)))
      && (r.doc.Some? ==> file.content.Some? && r.doc.value == NewDocument(file, analysis, r.doc.value.clientId, ctx)
                          && OwnedByMatch(r.clients, r.doc.value, analysis.clientName))
      && (|r.clients| > |clients| ==> FindMatch(clients, analysis.clientName).None? && MayCreateClient(analysis.clientName)
                                      && r.clients[|clients|].name == analysis.clientName)
      && (file.content.Some? && FindMatch(clients, analysis.clientName).Some? ==>
            r.clients == clients && r.doc.value.clientId == clients[FindMatch(clients, analysis.clientName).value].id)
  {
    var r := Assign(clients, file, analysis, ctx);
    if r.doc.Some? && FindMatch(clients, analysis.clientName).None? {
      ContainsSelf(Lower(analysis.clientName));
      assert Matches(r.clients[|clients|], analysis.clientName);
    }
  }

  /** When the analysis fails it reports the "Error de lectura" fallback; such a file never creates a
      client, and it is recorded only for a client whose name matches that sentinel. */
  lemma FailedAnalysisNeverCreates(clients: seq<Client>, file: UploadedFile, ctx: UploadContext)
    requires IsPasswordDraw(ctx.random)
    ensures var r := Assign(clients, file, FailedAnalysis, ctx);
      && r.clients == clients
      && (r.doc.Some? <==> file.content.Some? && FindMatch(clients, ReadErrorName).Some?)
  {
    assert !MayCreateClient(FailedAnalysis.clientName);
  }

  /** The body of the upload loop for one file, on the store: it does what `Assign` describes
      and prepends the document, if any, to the store's documents. */
  method ProcessFile(store: PortalStore, file: UploadedFile, analysis: AnalysisResult, ctx: UploadContext)
    returns (doc: Option<DocumentFile>)
    requires store.Valid()
    requires IdFree(store.clients, ctx.clientId)
    requires IdUnused(store.documents, ctx.documentId)
    requires IsPasswordDraw(ctx.random)
    modifies store
    ensures store.Valid()
    ensures store.auth == old(store.auth) && store.loginError == old(store.loginError)
    ensures Assignment(store.clients, doc) == Assign(old(store.clients), file, analysis, ctx)
    ensures store.documents == doc.ToSeq() + old(store.documents)
  {
    if file.content.None? {
      // reading the file threw; the exception is caught and the file is skipped
      return None;
    }
    var target: Option<Client> := None;
    var found := FindMatch(store.clients, analysis.clientName);
    if found.Some? {
      target := Some(store.clients[found.value]);
    }
    if target.None? && MayCreateClient(analysis.clientName) {
      if FindByName(store.clients, analysis.clientName).Some? {
        NameMatchImpliesMatch(store.clients, analysis.clientName);
      }
      var created := store.AddClient(analysis.clientName, ctx.clientId, ctx.random);
      target := Some(created);
    }
    if target.Some? {
      var d := NewDocument(file, analysis, target.value.id, ctx);
      store.AddDocument(d);
      doc := Some(d);
    } else {
      doc := None;
    }
  }

  /** No document has the id. */
  predicate IdUnused(documents: seq<DocumentFile>, id: string) {
    forall d :: 0 <= d < |documents| ==> documents[d].id != id
  }

  /** Every context holds a valid password draw. */
  predicate DrawsValid(contexts: seq<UploadContext>) {
    forall i :: 0 <= i < |contexts| ==> IsPasswordDraw(contexts[i].random)
  }

  /** The environment values for a batch are all fresh: new-client ids unused and pairwise
      different, document ids unused and pairwise different, and every draw valid. */
  ghost predicate FreshContexts(clients: seq<Client>, documents: seq<DocumentFile>, contexts: seq<UploadContext>) {
    && DrawsValid(contexts)
    && (forall i :: 0 <= i < |contexts| ==> IdFree(clients, contexts[i].clientId))
    && (forall i :: 0 <= i < |contexts| ==> IdUnused(documents, contexts[i].documentId))
    && (forall i, j :: 0 <= i < j < |contexts| ==> contexts[i].clientId != contexts[j].clientId)
    && (forall i, j :: 0 <= i < j < |contexts| ==> contexts[i].documentId != contexts[j].documentId)
  }

  /** Once the first context has been used for one file, the remaining ones are still fresh. */
  lemma FreshAfterAssign(clients: seq<Client>, documents: seq<DocumentFile>, contexts: seq<UploadContext>,
                         file: UploadedFile, analysis: AnalysisResult)
    requires FreshContexts(clients, documents, contexts) && |contexts| > 0
    ensures var r := Assign(clients, file, analysis, contexts[0]);
      FreshContexts(r.clients, r.doc.ToSeq() + documents, contexts[1..])
  {
    var r := Assign(clients, file, analysis, contexts[0]);
    var rest := contexts[1..];
    forall i | 0 <= i < |rest| ensures IdFree(r.clients, rest[i].clientId) {
      assert contexts[0].clientId != contexts[i + 1].clientId;
    }
    forall i | 0 <= i < |rest| ensures IdUnused(r.doc.ToSeq() + documents, rest[i].documentId) {
      assert contexts[0].documentId != contexts[i + 1].documentId;
    }
  }

  /** The outcome of a whole batch: the client list afterwards, the documents recorded in
      processing order, and for each the position of the file it came from. */
  datatype BatchOutcome = BatchOutcome(clients: seq<Client>, processed: seq<DocumentFile>, sources: seq<nat>)

  /** The files of a batch assigned one after another, each against the client list the
      previous ones left. */
  function AssignAll(clients: seq<Client>, files: seq<UploadedFile>, analyses: seq<AnalysisResult>, contexts: seq<UploadContext>)
    : (b: BatchOutcome)
    requires |analyses| == |files| && |contexts| == |files| && DrawsValid(contexts)
    ensures clients <= b.clients
    ensures |b.processed| == |b.sources| <= |files|
  {
    if files == [] then BatchOutcome(clients, [], [])
    else
      var n := |files| - 1;
      var prev := AssignAll(clients, files[..n], analyses[..n], contexts[..n]);
      Extend(prev, Assign(prev.clients, files[n], analyses[n], contexts[n]), n)
  }

  /** The batch outcome once file `n` has been assigned as `step` says. */
  function Extend(prev: BatchOutcome, step: Assignment, n: nat): BatchOutcome {
    BatchOutcome(step.clients, prev.processed + step.doc.ToSeq(), prev.sources + (if step.doc.Some? then [n] else []))
  }

  /** Document `j` of a batch came from file `sources[j]`, one of the first `done` files: a file
      that could be read, whose name, payload and extracted data the document carries, owned by
      a client whose name matches the name extracted from that file. Files are taken in order,
      and no readable file whose name may become a client is left without a document. */
  ghost predicate Provenance(b: BatchOutcome, files: seq<UploadedFile>, analyses: seq<AnalysisResult>,
                             contexts: seq<UploadContext>, done: nat)
    requires |analyses| == |files| && |contexts| == |files|
  {
    && done <= |files|
    && |b.processed| == |b.sources|
    && (forall j :: 0 <= j < |b.sources| ==>
          && b.sources[j] < done
          && files[b.sources[j]].content.Some?
          && b.processed[j] == NewDocument(files[b.sources[j]], analyses[b.sources[j]], b.processed[j].clientId, contexts[b.sources[j]])
          && OwnedByMatch(b.clients, b.processed[j], analyses[b.sources[j]].clientName))
    && (forall j, j' :: 0 <= j < j' < |b.sources| ==> b.sources[j] < b.sources[j'])
    && (forall k :: 0 <= k < done && files[k].content.Some? && MayCreateClient(analyses[k].clientName) ==> k in b.sources)
  }

  /** A document owned by a matching client still is once the client list has grown. */
  lemma OwnedInLongerList(clients: seq<Client>, longer: seq<Client>, doc: DocumentFile, name: string)
    requires clients <= longer && OwnedByMatch(clients, doc, name)
    ensures OwnedByMatch(longer, doc, name)
  {
    var k :| 0 <= k < |clients| && clients[k].id == doc.clientId && Matches(clients[k], name);
    assert longer[k] == clients[k];
  }

  /** Assigning file `done` keeps the provenance record, now covering one more file. */
  lemma ProvenanceExtend(prev: BatchOutcome, b: BatchOutcome, files: seq<UploadedFile>, analyses: seq<AnalysisResult>,
                         contexts: seq<UploadContext>, done: nat)
    requires |analyses| == |files| && |contexts| == |files| && DrawsValid(contexts) && done < |files|
    requires Provenance(prev, files, analyses, contexts, done)
    requires b == Extend(prev, Assign(prev.clients, files[done], analyses[done], contexts[done]), done)
    ensures Provenance(b, files, analyses, contexts, done + 1)
  {
    AssignOutcome(prev.clients, files[done], analyses[done], contexts[done]);
    forall j | 0 <= j < |prev.sources|
      ensures OwnedByMatch(b.clients, prev.processed[j], analyses[prev.sources[j]].clientName)
    {
      OwnedInLongerList(prev.clients, b.clients, prev.processed[j], analyses[prev.sources[j]].clientName);
    }
  }

  /** The provenance record holds for the first `done` files of a batch. */
  lemma {:induction false} ProvenanceUpTo(clients: seq<Client>, files: seq<UploadedFile>, analyses: seq<AnalysisResult>,
                                          contexts: seq<UploadContext>, done: nat)
    requires |analyses| == |files| && |contexts| == |files| && DrawsValid(contexts) && done <= |files|
    ensures Provenance(AssignAll(clients, files[..done], analyses[..done], contexts[..done]), files, analyses, contexts, done)
  {
    if done > 0 {
      var prev := AssignAll(clients, files[..done - 1], analyses[..done - 1], contexts[..done - 1]);
      var b := AssignAll(clients, files[..done], analyses[..done], contexts[..done]);
      assert Provenance(prev, files, analyses, contexts, done - 1) by {
        ProvenanceUpTo(clients, files, analyses, contexts, done - 1);
      }
      assert b == Extend(prev, Assign(prev.clients, files[done - 1], analyses[done - 1], contexts[done - 1]), done - 1) by {
        AssignAllExtend(clients, files, analyses, contexts, done - 1);
      }
      ProvenanceExtend(prev, b, files, analyses, contexts, done - 1);
    }
  }

  /** Every document of a batch is traced back to the file it came from. */
  lemma BatchProvenance(clients: seq<Client>, files: seq<UploadedFile>, analyses: seq<AnalysisResult>,
                        contexts: seq<UploadContext>)
    requires |analyses| == |files| && |contexts| == |files| && DrawsValid(contexts)
    ensures Provenance(AssignAll(clients, files, analyses, contexts), files, analyses, contexts, |files|)
  {
    ProvenanceUpTo(clients, files, analyses, contexts, |files|);
    assert files[..|files|] == files && analyses[..|files|] == analyses && contexts[..|files|] == contexts;
  }

  /** One more file extends the batch by that file's assignment. */
  lemma AssignAllExtend(clients: seq<Client>, files: seq<UploadedFile>, analyses: seq<AnalysisResult>,
                        contexts: seq<UploadContext>, i: nat)
    requires |analyses| == |files| && |contexts| == |files| && DrawsValid(contexts) && i < |files|
    ensures var prev := AssignAll(clients, files[..i], analyses[..i], contexts[..i]);
      var step := Assign(prev.clients, files[i], analyses[i], contexts[i]);
      var b := AssignAll(clients, files[..i + 1], analyses[..i + 1], contexts[..i + 1]);
      b == Extend(prev, step, i)
  {
    assert files[..i + 1][..i] == files[..i] && analyses[..i + 1][..i] == analyses[..i]
           && contexts[..i + 1][..i] == contexts[..i];
  }

  /** The environment values left for the files after `i` stay fresh once file `i` is assigned. */
  lemma BatchStepFresh(files: seq<UploadedFile>, analyses: seq<AnalysisResult>, contexts: seq<UploadContext>, i: nat,
                       clients: seq<Client>, documents: seq<DocumentFile>)
    requires |analyses| == |files| && |contexts| == |files| && i < |files|
    requires FreshContexts(clients, documents, contexts[i..])
    ensures IdFree(clients, contexts[i].clientId) && IdUnused(documents, contexts[i].documentId)
    ensures IsPasswordDraw(contexts[i].random)
    ensures var r := Assign(clients, files[i], analyses[i], contexts[i]);
      FreshContexts(r.clients, r.doc.ToSeq() + documents, contexts[i + 1..])
  {
    assert contexts[i..][0] == contexts[i] && contexts[i..][1..] == contexts[i + 1..];
    FreshAfterAssign(clients, documents, contexts[i..], files[i], analyses[i]);
  }

  /** Recording one more document keeps the store's list, newest first, the reverse of the
      documents processed ahead of the documents it had. */
  lemma NewestFirst(processed: seq<DocumentFile>, initialDocs: seq<DocumentFile>, doc: Option<DocumentFile>)
    ensures doc.ToSeq() + (Reverse(processed) + initialDocs) == Reverse(processed + doc.ToSeq()) + initialDocs
  {
    if doc.Some? {
      ReverseSnoc(processed, doc.value);
      assert doc.ToSeq() == [doc.value];
    } else {
      assert processed + doc.ToSeq() == processed;
    }
  }

  /** What the upload keeps after its first `i` files: the client list and the documents
      processed are those of assigning those files in order, the store's documents are the
      processed ones newest first ahead of the documents it had, and the environment values
      left for the other files are fresh. */
  ghost predicate UploadProgress(initial: seq<Client>, initialDocs: seq<DocumentFile>, files: seq<UploadedFile>,
                                 analyses: seq<AnalysisResult>, contexts: seq<UploadContext>, i: nat,
                                 clients: seq<Client>, documents: seq<DocumentFile>, processed: seq<DocumentFile>)
  {
    && |analyses| == |files| && |contexts| == |files| && DrawsValid(contexts) && i <= |files|
    && FreshContexts(clients, documents, contexts[i..])
    && clients == AssignAll(initial, files[..i], analyses[..i], contexts[..i]).clients
    && processed == AssignAll(initial, files[..i], analyses[..i], contexts[..i]).processed
    && documents == Reverse(processed) + initialDocs
  }

  /** Before the first file nothing has changed. */
  lemma UploadStart(initial: seq<Client>, initialDocs: seq<DocumentFile>, files: seq<UploadedFile>,
                    analyses: seq<AnalysisResult>, contexts: seq<UploadContext>)
    requires |analyses| == |files| && |contexts| == |files| && FreshContexts(initial, initialDocs, contexts)
    ensures UploadProgress(initial, initialDocs, files, analyses, contexts, 0, initial, initialDocs, [])
  {
    assert contexts[0..] == contexts;
    assert files[..0] == [];
  }

  /** After the last file the store holds the outcome of assigning the whole batch. */
  lemma UploadDone(initial: seq<Client>, initialDocs: seq<DocumentFile>, files: seq<UploadedFile>,
                   analyses: seq<AnalysisResult>, contexts: seq<UploadContext>,
                   clients: seq<Client>, documents: seq<DocumentFile>, processed: seq<DocumentFile>)
    requires UploadProgress(initial, initialDocs, files, analyses, contexts, |files|, clients, documents, processed)
    ensures clients == AssignAll(initial, files, analyses, contexts).clients
    ensures processed == AssignAll(initial, files, analyses, contexts).processed
    ensures documents == Reverse(processed) + initialDocs
  {
    assert files[..|files|] == files && analyses[..|files|] == analyses && contexts[..|files|] == contexts;
  }

  /** Processing file `i` of a batch on the store: the loop body of the upload. */
  method UploadNext(store: PortalStore, files: seq<UploadedFile>, analyses: seq<AnalysisResult>, contexts: seq<UploadContext>,
                    ghost initial: seq<Client>, ghost initialDocs: seq<DocumentFile>, i: nat, processed: seq<DocumentFile>)
    returns (next: seq<DocumentFile>)
    requires i < |files| && store.Valid()
    requires UploadProgress(initial, initialDocs, files, analyses, contexts, i, store.clients, store.documents, processed)
    modifies store
    ensures store.Valid()
    ensures store.auth == old(store.auth) && store.loginError == old(store.loginError)
    ensures UploadProgress(initial, initialDocs, files, analyses, contexts, i + 1, store.clients, store.documents, next)
  {
    BatchStepFresh(files, analyses, contexts, i, store.clients, store.documents);
    AssignAllExtend(initial, files, analyses, contexts, i);
    var doc := ProcessFile(store, files[i], analyses[i], contexts[i]);
    NewestFirst(processed, initialDocs, doc);
    next := processed + doc.ToSeq();
  }

  /** `handleFileUpload`: processes the files one at a time, in order, each against the client
      list the previous ones left; a file that fails is skipped and the rest still go through.
      The result lists the documents assigned, in processing order; the store's list holds them
      newest first, ahead of the documents it had. */
  method UploadFiles(store: PortalStore, files: seq<UploadedFile>, analyses: seq<AnalysisResult>, contexts: seq<UploadContext>)
    returns (processed: seq<DocumentFile>)
    requires |analyses| == |files| && |contexts| == |files|
    requires store.Valid()
    requires FreshContexts(store.clients, store.documents, contexts)
    modifies store
    ensures store.Valid()
    ensures store.auth == old(store.auth) && store.loginError == old(store.loginError)
    ensures store.clients == AssignAll(old(store.clients), files, analyses, contexts).clients
    ensures processed == AssignAll(old(store.clients), files, analyses, contexts).processed
    ensures store.documents == Reverse(processed) + old(store.documents)
    ensures |processed| <= |files|
  {
    processed := [];
    var i := 0;
    UploadStart(store.clients, store.documents, files, analyses, contexts);
    while i < |files|
      invariant 0 <= i <= |files|
      invariant store.Valid()
      invariant store.auth == old(store.auth) && store.loginError == old(store.loginError)
      invariant UploadProgress(old(store.clients), old(store.documents), files, analyses, contexts, i,
                               store.clients, store.documents, processed)
    {
      processed := UploadNext(store, files, analyses, contexts, old(store.clients), old(store.documents), i, processed);
      i := i + 1;
    }
    UploadDone(old(store.clients), old(store.documents), files, analyses, contexts, store.clients, store.documents, processed);
  }

  /** `handleManualAddClient`: adds a client under the trimmed name, and only when the trimmed
      name is not empty. */
  method ManualAddClient(store: PortalStore, newClientName: string, newId: string, random: seq<real>)
    returns (added: Option<Client>)
    requires store.Valid()
    requires IdFree(store.clients, newId)
    requires IsPasswordDraw(random)
    modifies store
    ensures store.Valid()
    ensures store.documents == old(store.documents) && store.auth == old(store.auth)
    ensures store.loginError == old(store.loginError)
    ensures added.None? <==> forall i :: 0 <= i < |newClientName| ==> IsSpace(newClientName[i])
    ensures added.None? ==> store.clients == old(store.clients)
    ensures added.Some? ==>
      match FindByName(old(store.clients), Trim(newClientName))
      case Some(k) => added.value == old(store.clients)[k] && store.clients == old(store.clients)
      case None =>
        added.value == Client(newId, Trim(newClientName), PasswordFrom(random), None, [], None)
        && store.clients == old(store.clients) + [added.value]
  {
    var trimmed := Trim(newClientName);
    if trimmed != "" {
      var c := store.AddClient(trimmed, newId, random);
      added := Some(c);
    } else {
      added := None;
    }
  }

  // ---------------------------------------------------------------- permissions

  /** `togglePermission`: the target id is removed (every occurrence) when present and
      appended when absent; no other id is affected. */
  function TogglePermission(perms: seq<string>, targetId: string): (r: seq<string>)
    ensures targetId in r <==> targetId !in perms
    ensures forall id :: id != targetId ==> (id in r <==> id in perms)
    ensures targetId !in perms ==> r == perms + [targetId]
  {
    if targetId in perms then Filter(perms, (id: string) => id != targetId) else perms + [targetId]
  }

  /** Toggling an absent id twice gives back the original list. */
  lemma ToggleTwiceRestores(perms: seq<string>, targetId: string)
    requires targetId !in perms
    ensures TogglePermission(TogglePermission(perms, targetId), targetId) == perms
  {
    var p := (id: string) => id != targetId;
    FilterConcat(perms, [targetId], p);
    FilterKeepsAll(perms, p);
    assert Filter([targetId], p) == [];
  }

  /** The clients offered in the permission editor: all except the one being edited. */
  function PermissionCandidates(clients: seq<Client>, editing: string): (r: seq<Client>)
    ensures |r| <= |clients|
    ensures forall c :: c in r <==> c in clients && c.id != editing
  {
    Filter(clients, (c: Client) => c.id != editing)
  }

  /** With unique ids, the editor offers every client but the edited one. */
  lemma CandidatesAllButEditor(clients: seq<Client>, editing: string)
    requires UniqueIds(clients) && FindById(clients, editing).Some?
    ensures |PermissionCandidates(clients, editing)| == |clients| - 1
  {
    var k := FindById(clients, editing).value;
    forall i | 0 <= i < |clients| && i != k ensures clients[i].id != editing {
      if i < k {
        assert ClientId(clients[i]) != ClientId(clients[k]);
      } else {
        assert ClientId(clients[k]) != ClientId(clients[i]);
      }
    }
    FilterDropsOne(clients, (c: Client) => c.id != editing, k);
  }

  /** A permission list edited only through the editor never gains the edited client's own id. */
  lemma ToggleCandidateKeepsSelfOut(clients: seq<Client>, editing: string, perms: seq<string>, target: Client)
    requires editing !in perms
    requires target in PermissionCandidates(clients, editing)
    ensures editing !in TogglePermission(perms, target.id)
  {
  }

  // ---------------------------------------------------------------- display helpers

  /** `getContractLabel`: one of three labels; anything other than the two known contract
      types, a missing one included, reads "Sin contrato". */
  function ContractLabel(contractType: Option<string>): (shown: string)
    ensures shown == "Pack por horas" || shown == "Mensual" || shown == "Sin contrato"
    ensures shown == "Sin contrato" <==> contractType != Some("pack_horas") && contractType != Some("mensual")
    ensures contractType == Some("pack_horas") ==> shown == "Pack por horas"
    ensures contractType == Some("mensual") ==> shown == "Mensual"
  {
    match contractType
    case Some("pack_horas") => "Pack por horas"
    case Some("mensual") => "Mensual"
    case _ => "Sin contrato"
  }

  /** `docCount`: how many documents belong to the client with that id. */
  function DocCount(documents: seq<DocumentFile>, id: string): (n: nat)
    ensures n <= |documents|
  {
    |Filter(documents, (d: DocumentFile) => d.clientId == id)|
  }

  /** Adding a document raises its owner's count by one and leaves every other count as it was. */
  lemma DocCountAfterAdd(documents: seq<DocumentFile>, doc: DocumentFile, id: string)
    ensures DocCount([doc] + documents, id) == DocCount(documents, id) + (if doc.clientId == id then 1 else 0)
  {
    FilterConcat([doc], documents, (d: DocumentFile) => d.clientId == id);
  }
}

=== FILE: client_view.dfy ===
/** The client's dashboard (components/ClientDashboard.tsx): the statistics over the documents
    the client may see, the search box, and the owner shown beside a shared document. */
module ClientView {
  import opened Wrappers
  import opened Types
  import opened Text
  import opened Seqs
  import opened Store

  // ---------------------------------------------------------------- search and labels

  /** The search box's predicate: the file name contains the term, ignoring case. */
  predicate FileNameMatches(d: DocumentFile, term: string) {
    Contains(Lower(d.fileName), Lower(term))
  }

  /** `filteredDocs`: the documents whose file name contains the term, in list order. */
  function Search(documents: seq<DocumentFile>, term: string): (r: seq<DocumentFile>)
    ensures |r| <= |documents|
    ensures forall d :: d in r <==> d in documents && FileNameMatches(d, term)
  {
    Filter(documents, (d: DocumentFile) => FileNameMatches(d, term))
  }

  /** An empty search term shows every document. */
  lemma EmptySearchShowsAll(documents: seq<DocumentFile>)
    ensures Search(documents, "") == documents
  {
    forall i | 0 <= i < |documents| ensures FileNameMatches(documents[i], "") {
      ContainsEmpty(Lower(documents[i].fileName));
    }
    FilterKeepsAll(documents, (d: DocumentFile) => FileNameMatches(d, ""));
  }

  /** The search keeps the documents' order: searching a concatenation searches each part. */
  lemma SearchKeepsOrder(a: seq<DocumentFile>, b: seq<DocumentFile>, term: string)
    ensures Search(a + b, term) == Search(a, term) + Search(b, term)
  {
    FilterConcat(a, b, (d: DocumentFile) => FileNameMatches(d, term));
  }

  /** `getClientName`: the name of the first client with the id, or "Desconocido" when there
      is none or its name is empty; never empty. */
  function ClientName(allClients: seq<Client>, clientId: string): (name: string)
    ensures name != ""
    ensures IdFree(allClients, clientId) ==> name == UnknownName
    ensures forall k :: (0 <= k < |allClients| && allClients[k].id == clientId && allClients[k].name != ""
                         && (forall j :: 0 <= j < k ==> allClients[j].id != clientId)) ==> name == allClients[k].name
    ensures FindById(allClients, clientId).Some? && allClients[FindById(allClients, clientId).value].name == ""
            ==> name == UnknownName
  {
    match FindById(allClients, clientId)
    case Some(k) => if allClients[k].name != "" then allClients[k].name else UnknownName
    case None => UnknownName
  }

  /** With unique ids, every client with a non-empty name is shown under that name. */
  lemma ClientNameOfMember(allClients: seq<Client>, k: nat)
    requires UniqueIds(allClients) && k < |allClients| && allClients[k].name != ""
    ensures ClientName(allClients, allClients[k].id) == allClients[k].name
  {
    forall j | 0 <= j < k ensures allClients[j].id != allClients[k].id {
      assert ClientId(allClients[j]) != ClientId(allClients[k]);
    }
  }

  /** `isShared`: the document belongs to someone other than the viewer. */
  predicate IsShared(d: DocumentFile, viewer: Client) {
    d.clientId != viewer.id
  }

  /** A shared document in a client's list belongs to a client it has been granted. */
  lemma SharedDocumentIsGranted(clients: seq<Client>, documents: seq<DocumentFile>, k: nat, d: DocumentFile)
    requires k < |clients| && FindById(clients, clients[k].id) == Some(k)
    requires d in ViewableDocs(clients, documents, clients[k].id) && IsShared(d, clients[k])
    ensures d.clientId in clients[k].viewableClientIds
  {
  }

  // ---------------------------------------------------------------- statistics

  /** A document's hours (`doc.data.hours || 0`); a document without data counts nothing. */
  function HoursOf(d: DocumentFile): real {
    match d.data
    case None => 0.0
    case Some(data) => data.hours.GetOr(0.0)
  }

  /** One when the document has data marked resolved. */
  function ResolvedOf(d: DocumentFile): nat {
    if IsResolved(d) then 1 else 0
  }

  /** A document's material lines; a document without data or without materials has none. */
  function LinesOf(d: DocumentFile): seq<Material> {
    if d.data.Some? && d.data.value.materials.Some? then d.data.value.materials.value else []
  }

  /** Total hours over the documents. */
  function TotalHours(docs: seq<DocumentFile>): real {
    if docs == [] then 0.0 else TotalHours(docs[..|docs| - 1]) + HoursOf(docs[|docs| - 1])
  }

  /** How many documents are resolved: never more than there are documents. */
  function ResolvedCount(docs: seq<DocumentFile>): (n: nat)
    ensures n <= |docs|
  {
    if docs == [] then 0 else ResolvedCount(docs[..|docs| - 1]) + ResolvedOf(docs[|docs| - 1])
  }

  /** Every material line of every document, in document order. */
  function MaterialLines(docs: seq<DocumentFile>): seq<Material> {
    if docs == [] then [] else MaterialLines(docs[..|docs| - 1]) + LinesOf(docs[|docs| - 1])
  }

  lemma {:induction false} TotalHoursConcat(a: seq<DocumentFile>, b: seq<DocumentFile>)
    ensures TotalHours(a + b) == TotalHours(a) + TotalHours(b)
  {
    if b == [] {
      assert a + b == a;
    } else {
      var init := b[..|b| - 1];
      calc {
        TotalHours(a + b);
        { assert (a + b)[..|a + b| - 1] == a + init; }
        TotalHours(a + init) + HoursOf(b[|b| - 1]);
        { TotalHoursConcat(a, init); }
        TotalHours(a) + TotalHours(init) + HoursOf(b[|b| - 1]);
      }
    }
  }

  lemma {:induction false} ResolvedCountConcat(a: seq<DocumentFile>, b: seq<DocumentFile>)
    ensures ResolvedCount(a + b) == ResolvedCount(a) + ResolvedCount(b)
  {
    if b == [] {
      assert a + b == a;
    } else {
      var init := b[..|b| - 1];
      calc {
        ResolvedCount(a + b);
        { assert (a + b)[..|a + b| - 1] == a + init; }
        ResolvedCount(a + init) + ResolvedOf(b[|b| - 1]);
        { ResolvedCountConcat(a, init); }
        ResolvedCount(a) + ResolvedCount(init) + ResolvedOf(b[|b| - 1]);
      }
    }
  }

  lemma {:induction false} MaterialLinesConcat(a: seq<DocumentFile>, b: seq<DocumentFile>)
    ensures MaterialLines(a + b) == MaterialLines(a) + MaterialLines(b)
  {
    if b == [] {
      assert a + b == a;
    } else {
      var init := b[..|b| - 1];
      calc {
        MaterialLines(a + b);
        { assert (a + b)[..|a + b| - 1] == a + init; }
        MaterialLines(a + init) + LinesOf(b[|b| - 1]);
        { MaterialLinesConcat(a, init); }
        MaterialLines(a) + MaterialLines(init) + LinesOf(b[|b| - 1]);
      }
    }
  }

  /** The documents counted as resolved: those with data marked resolved. */
  predicate IsResolved(d: DocumentFile) {
    d.data.Some? && d.data.value.isResolved
  }

  /** The resolved count is the number of documents with data marked resolved. */
  lemma {:induction false} ResolvedCountCountsResolved(docs: seq<DocumentFile>)
    ensures ResolvedCount(docs) == |Filter(docs, IsResolved)|
  {
    if docs != [] {
      var init, last := docs[..|docs| - 1], docs[|docs| - 1];
      ResolvedCountCountsResolved(init);
      assert docs == init + [last];
      FilterConcat(init, [last], IsResolved);
      assert Filter([last], IsResolved) == (if IsResolved(last) then [last] else []) by {
        assert [last][1..] == [];
      }
    }
  }

  /** A document without extracted data changes no statistic, wherever it stands. */
  lemma DocumentWithoutDataIgnored(a: seq<DocumentFile>, d: DocumentFile, b: seq<DocumentFile>)
    requires d.data.None?
    ensures TotalHours(a + [d] + b) == TotalHours(a + b)
    ensures ResolvedCount(a + [d] + b) == ResolvedCount(a + b)
    ensures MaterialLines(a + [d] + b) == MaterialLines(a + b)
  {
    assert (a + [d])[..|a|] == a;
    assert TotalHours(a + [d] + b) == TotalHours(a + b) by {
      TotalHoursConcat(a + [d], b);
      TotalHoursConcat(a, b);
    }
    assert ResolvedCount(a + [d] + b) == ResolvedCount(a + b) by {
      ResolvedCountConcat(a + [d], b);
      ResolvedCountConcat(a, b);
    }
    assert MaterialLines(a + [d] + b) == MaterialLines(a + b) by {
      MaterialLinesConcat(a + [d], b);
      MaterialLinesConcat(a, b);
    }
  }

  /** Total hours do not depend on the order of the documents. */
  lemma {:induction false} TotalHoursIgnoresOrder(a: seq<DocumentFile>, b: seq<DocumentFile>)
    requires multiset(a) == multiset(b)
    ensures TotalHours(a) == TotalHours(b)
  {
    if a != [] {
      var n := |a| - 1;
      var x := a[n];
      assert x in multiset(b);
      var p :| 0 <= p < |b| && b[p] == x;
      var rest := b[..p] + b[p + 1..];
      MultisetRemoveLast(a, b, p);
      TotalHoursIgnoresOrder(a[..n], rest);
      calc {
        TotalHours(b);
        { assert b == (b[..p] + [x]) + b[p + 1..]; }
        TotalHours((b[..p] + [x]) + b[p + 1..]);
        { TotalHoursConcat(b[..p] + [x], b[p + 1..]); }
        TotalHours(b[..p] + [x]) + TotalHours(b[p + 1..]);
        { assert (b[..p] + [x])[..p] == b[..p]; }
        TotalHours(b[..p]) + HoursOf(x) + TotalHours(b[p + 1..]);
        { TotalHoursConcat(b[..p], b[p + 1..]); }
        TotalHours(rest) + HoursOf(x);
        TotalHours(a);
      }
    }
  }

  /** The resolved count does not depend on the order of the documents. */
  lemma {:induction false} ResolvedCountIgnoresOrder(a: seq<DocumentFile>, b: seq<DocumentFile>)
    requires multiset(a) == multiset(b)
    ensures ResolvedCount(a) == ResolvedCount(b)
  {
    if a != [] {
      var n := |a| - 1;
      var x := a[n];
      assert x in multiset(b);
      var p :| 0 <= p < |b| && b[p] == x;
      var rest := b[..p] + b[p + 1..];
      MultisetRemoveLast(a, b, p);
      ResolvedCountIgnoresOrder(a[..n], rest);
      calc {
        ResolvedCount(b);
        { assert b == (b[..p] + [x]) + b[p + 1..]; }
        ResolvedCount((b[..p] + [x]) + b[p + 1..]);
        { ResolvedCountConcat(b[..p] + [x], b[p + 1..]); }
        ResolvedCount(b[..p] + [x]) + ResolvedCount(b[p + 1..]);
        { assert (b[..p] + [x])[..p] == b[..p]; }
        ResolvedCount(b[..p]) + ResolvedOf(x) + ResolvedCount(b[p + 1..]);
        { ResolvedCountConcat(b[..p], b[p + 1..]); }
        ResolvedCount(rest) + ResolvedOf(x);
        ResolvedCount(a);
      }
    }
  }

  // ---------------------------------------------------------------- the material map

  /** The names of the entries, in order. */
  function Names(entries: seq<Material>): (r: seq<string>)
    ensures |r| == |entries|
    ensures forall i :: 0 <= i < |r| ==> r[i] == entries[i].name
  {
    seq(|entries|, i requires 0 <= i < |entries| => entries[i].name)
  }

  /** The position of the entry for `name`. */
  function IndexOfName(entries: seq<Material>, name: string): (r: Option<nat>)
    ensures r.Some? ==> (r.value < |entries| && entries[r.value].name == name
                         && forall j :: 0 <= j < r.value ==> entries[j].name != name)
    ensures r.None? ==> forall j :: 0 <= j < |entries| ==> entries[j].name != name
  {
    FindFirst(entries, (m: Material) => m.name == name)
  }

  /** The units the map holds for a name, or zero when it has no entry for it. */
  function UnitsOf(entries: seq<Material>, name: string): real {
    match IndexOfName(entries, name)
    case Some(k) => entries[k].units
    case None => 0.0
  }

  /** `materialMap.set(name, units)`: an existing entry keeps its place, a new one goes last. */
  function SetUnits(entries: seq<Material>, name: string, units: real): seq<Material> {
    match IndexOfName(entries, name)
    case Some(k) => entries[k := Material(name, units)]
    case None => entries + [Material(name, units)]
  }

  /** Adds one material line to the map. */
  function AddLine(entries: seq<Material>, line: Material): seq<Material> {
    SetUnits(entries, line.name, UnitsOf(entries, line.name) + line.units)
  }

  /** The map after adding every line in order. */
  function Tally(lines: seq<Material>): seq<Material> {
    if lines == [] then [] else AddLine(Tally(lines[..|lines| - 1]), lines[|lines| - 1])
  }

  /** Tallying one more line adds it to the map of the lines before it. */
  lemma TallySnoc(lines: seq<Material>, line: Material)
    ensures Tally(lines + [line]) == AddLine(Tally(lines), line)
  {
    assert (lines + [line])[..|lines|] == lines;
  }

  /** The sum of the units of the lines named `name`. */
  function SumUnits(lines: seq<Material>, name: string): real {
    if lines == [] then 0.0
    else SumUnits(lines[..|lines| - 1], name) + (if lines[|lines| - 1].name == name then lines[|lines| - 1].units else 0.0)
  }

  /** The position where `name` first occurs. */
  function FirstIndex(names: seq<string>, name: string): (k: nat)
    requires name in names
    ensures k < |names| && names[k] == name && name !in names[..k]
  {
    if names[0] == name then 0 else 1 + FirstIndex(names[1..], name)
  }

  /** Two maps whose names agree on the common part, where the longer one's extra entries
      are not named `name`, find `name` at the same position. */
  lemma IndexOfNameAgrees(e: seq<Material>, r: seq<Material>, name: string)
    requires |e| <= |r|
    requires forall j :: 0 <= j < |e| ==> r[j].name == e[j].name
    requires forall j :: |e| <= j < |r| ==> r[j].name != name
    ensures IndexOfName(r, name) == IndexOfName(e, name)
  {
    var a := IndexOfName(e, name);
    var b := IndexOfName(r, name);
    if a.Some? {
      assert r[a.value].name == name;
    }
    if b.Some? && b.value < |e| {
      assert e[b.value].name == name;
    }
  }

  /** Adding a line raises the units of its own name by its units and leaves other names. */
  lemma UnitsOfAfterAdd(e: seq<Material>, line: Material, name: string)
    ensures UnitsOf(AddLine(e, line), name) == UnitsOf(e, name) + (if line.name == name then line.units else 0.0)
  {
    var r := AddLine(e, line);
    match IndexOfName(e, line.name)
    case Some(k) =>
      assert r == e[k := Material(line.name, UnitsOf(e, line.name) + line.units)];
      IndexOfNameAgrees(e, r, name);
    case None =>
      assert r == e + [Material(line.name, line.units)];
      if name == line.name {
        assert r[|e|].name == name;
        assert forall j :: 0 <= j < |e| ==> r[j] == e[j];
      } else {
        IndexOfNameAgrees(e, r, name);
      }
  }

  /** Adding a line keeps the names of the existing entries and appends its name when it is new. */
  lemma NamesAfterAdd(e: seq<Material>, line: Material)
    ensures line.name in Names(e) ==> Names(AddLine(e, line)) == Names(e)
    ensures line.name !in Names(e) ==> Names(AddLine(e, line)) == Names(e) + [line.name]
  {
    var r := AddLine(e, line);
    match IndexOfName(e, line.name)
    case Some(k) =>
      assert r == e[k := Material(line.name, UnitsOf(e, line.name) + line.units)];
    case None =>
      assert r == e + [Material(line.name, line.units)];
      assert line.name !in Names(e);
  }

  lemma {:induction false} TallyUnits(lines: seq<Material>, name: string)
    ensures UnitsOf(Tally(lines), name) == SumUnits(lines, name)
  {
    if lines != [] {
      TallyUnits(lines[..|lines| - 1], name);
      UnitsOfAfterAdd(Tally(lines[..|lines| - 1]), lines[|lines| - 1], name);
    }
  }

  /** The entries' names are exactly the names in `names`, without repetition, ordered by
      where each first occurs in `names`. */
  ghost predicate FirstSeenOrder(t: seq<Material>, names: seq<string>) {
    && Distinct(Names(t))
    && (forall n :: n in Names(t) <==> n in names)
    && (forall i, j :: 0 <= i < j < |t| ==>
          t[i].name in names && t[j].name in names && FirstIndex(names, t[i].name) < FirstIndex(names, t[j].name))
  }

  /** Adding a line to a map in first-seen order keeps it in first-seen order. */
  lemma AddLineKeepsOrder(t: seq<Material>, names: seq<string>, line: Material)
    requires FirstSeenOrder(t, names)
    ensures FirstSeenOrder(AddLine(t, line), names + [line.name])
  {
    var t' := AddLine(t, line);
    var names' := names + [line.name];
    NamesAfterAdd(t, line);
    forall n | n in names ensures FirstIndex(names', n) == FirstIndex(names, n) {
      FirstIndexExtend(names, line.name, n);
    }
    forall i, j | 0 <= i < j < |t'|
      ensures t'[i].name in names' && t'[j].name in names' && FirstIndex(names', t'[i].name) < FirstIndex(names', t'[j].name)
    {
      assert Names(t')[i] == t'[i].name && Names(t')[j] == t'[j].name;
      if line.name in Names(t) {
        assert Names(t')[i] == Names(t)[i] && Names(t')[j] == Names(t)[j];
      } else {
        FirstIndexOfNew(names, line.name);
        assert t'[i].name == Names(t)[i];
        if j < |t| {
          assert t'[j].name == Names(t)[j];
        }
      }
    }
  }

  /** The map has one entry per distinct name of the lines, in first-seen order. */
  lemma {:induction false} TallyNames(lines: seq<Material>)
    ensures FirstSeenOrder(Tally(lines), Names(lines))
  {
    if lines != [] {
      var init := lines[..|lines| - 1];
      TallyNames(init);
      AddLineKeepsOrder(Tally(init), Names(init), lines[|lines| - 1]);
      assert Names(lines) == Names(init) + [lines[|lines| - 1].name];
    }
  }

  /** A name already present keeps its first position when a name is appended. */
  lemma FirstIndexExtend(names: seq<string>, extra: string, n: string)
    requires n in names
    ensures FirstIndex(names + [extra], n) == FirstIndex(names, n)
  {
    var k := FirstIndex(names, n);
    var k' := FirstIndex(names + [extra], n);
    assert (names + [extra])[k] == n;
    assert (names + [extra])[..k] == names[..k];
  }

  /** A new name appended last first occurs at the end. */
  lemma FirstIndexOfNew(names: seq<string>, n: string)
    requires n !in names
    ensures FirstIndex(names + [n], n) == |names|
  {
    assert (names + [n])[|names|] == n;
  }

  /** Each entry's units are the sum over every line with its name. */
  lemma TallyEntryUnits(lines: seq<Material>, k: nat)
    requires k < |Tally(lines)|
    ensures Tally(lines)[k].units == SumUnits(lines, Tally(lines)[k].name)
  {
    var t := Tally(lines);
    TallyNames(lines);
    TallyUnits(lines, t[k].name);
    var idx := IndexOfName(t, t[k].name);
    assert idx.Some?;
  }

  /** "Productos Diferentes": the number of entries is the number of distinct material names. */
  lemma TallyCount(lines: seq<Material>)
    ensures |Tally(lines)| == |set m | m in lines :: m.name|
  {
    var t := Tally(lines);
    TallyNames(lines);
    DistinctCard(Names(t));
    assert (set n | n in Names(t)) == (set m | m in lines :: m.name) by {
      forall n ensures n in Names(t) <==> n in (set m | m in lines :: m.name) {
        if n in Names(lines) {
          var i :| 0 <= i < |lines| && Names(lines)[i] == n;
          assert lines[i] in lines;
        }
        if n in (set m | m in lines :: m.name) {
          var m :| m in lines && m.name == n;
          var i :| 0 <= i < |lines| && lines[i] == m;
          assert Names(lines)[i] == n;
        }
      }
    }
  }

  // ---------------------------------------------------------------- the reduction

  /** The map after adding the lines, in order, to `entries`. */
  function AddLines(entries: seq<Material>, lines: seq<Material>): seq<Material> {
    if lines == [] then entries else AddLine(AddLines(entries, lines[..|lines| - 1]), lines[|lines| - 1])
  }

  /** Tallying a concatenation continues from the tally of its first part. */
  lemma {:induction false} TallyConcat(before: seq<Material>, lines: seq<Material>)
    ensures Tally(before + lines) == AddLines(Tally(before), lines)
  {
    if lines == [] {
      assert before + lines == before;
    } else {
      var init, last := lines[..|lines| - 1], lines[|lines| - 1];
      calc {
        Tally(before + lines);
        { assert before + lines == (before + init) + [last]; }
        Tally((before + init) + [last]);
        { TallySnoc(before + init, last); }
        AddLine(Tally(before + init), last);
        { TallyConcat(before, init); }
        AddLine(AddLines(Tally(before), init), last);
      }
    }
  }

  /** The inner loop of the reduction: adds a document's material lines to the map one by one,
      reading the current units (`get(name) || 0`) and writing back the sum (`set`). */
  method TallyInto(entries: seq<Material>, mats: seq<Material>) returns (r: seq<Material>)
    ensures r == AddLines(entries, mats)
  {
    r := entries;
    var j := 0;
    while j < |mats|
      invariant 0 <= j <= |mats|
      invariant r == AddLines(entries, mats[..j])
    {
      assert mats[..j + 1][..j] == mats[..j];
      var current := UnitsOf(r, mats[j].name);
      r := SetUnits(r, mats[j].name, current + mats[j].units);
      j := j + 1;
    }
    assert mats[..j] == mats;
  }

  /** `stats`: one pass over the documents adding up hours, counting resolved documents and
      accumulating material units per name in a map that remembers insertion order. */
  method ComputeStats(documents: seq<DocumentFile>) returns (totalHours: real, resolvedCount: nat, materials: seq<Material>)
    ensures totalHours == TotalHours(documents)
    ensures resolvedCount == ResolvedCount(documents)
    ensures materials == Tally(MaterialLines(documents))
  {
    totalHours, resolvedCount := 0.0, 0;
    var entries: seq<Material> := [];
    var i := 0;
    while i < |documents|
      invariant 0 <= i <= |documents|
      invariant totalHours == TotalHours(documents[..i])
      invariant resolvedCount == ResolvedCount(documents[..i])
      invariant entries == Tally(MaterialLines(documents[..i]))
    {
      var doc := documents[i];
      assert documents[..i + 1][..i] == documents[..i];
      if doc.data.Some? {
        var data := doc.data.value;
        totalHours := totalHours + data.hours.GetOr(0.0);
        if data.isResolved {
          resolvedCount := resolvedCount + 1;
        }
        if data.materials.Some? && |data.materials.value| > 0 {
          TallyConcat(MaterialLines(documents[..i]), data.materials.value);
          entries := TallyInto(entries, data.materials.value);
        } else {
          assert MaterialLines(documents[..i]) + LinesOf(doc) == MaterialLines(documents[..i]);
        }
      } else {
        assert MaterialLines(documents[..i]) + LinesOf(doc) == MaterialLines(documents[..i]);
      }
      i := i + 1;
    }
    assert documents[..i] == documents;
    materials := entries;
  }
}

=== FILE: seqs.dfy ===
/** The array operations the portal uses (`filter`, `find`), stated once for all element types. */
module Seqs {
  import opened Wrappers

  /** `Array.prototype.filter`: the elements that satisfy `p`, in their original order. */
  function Filter<T>(s: seq<T>, p: T -> bool): (r: seq<T>)
    ensures |r| <= |s|
    ensures forall i :: 0 <= i < |r| ==> r[i] in s && p(r[i])
    ensures forall i :: 0 <= i < |s| && p(s[i]) ==> s[i] in r
  {
    if s == [] then [] else (if p(s[0]) then [s[0]] else []) + Filter(s[1..], p)
  }

  /** Filtering a concatenation filters each part and keeps the parts in order. */
  lemma {:induction false} FilterConcat<T>(a: seq<T>, b: seq<T>, p: T -> bool)
    ensures Filter(a + b, p) == Filter(a, p) + Filter(b, p)
  {
    if a == [] {
      assert a + b == b;
    } else {
      assert (a + b)[1..] == a[1..] + b;
      FilterConcat(a[1..], b, p);
    }
  }

  /** A filter that every element passes returns the sequence itself. */
  lemma {:induction false} FilterKeepsAll<T>(s: seq<T>, p: T -> bool)
    requires forall i :: 0 <= i < |s| ==> p(s[i])
    ensures Filter(s, p) == s
  {
    if s != [] {
      FilterKeepsAll(s[1..], p);
    }
  }

  /** Filtering out exactly one element shortens the sequence by one. */
  lemma {:induction false} FilterDropsOne<T>(s: seq<T>, p: T -> bool, k: nat)
    requires k < |s| && !p(s[k])
    requires forall i :: 0 <= i < |s| && i != k ==> p(s[i])
    ensures |Filter(s, p)| == |s| - 1
  {
    if k == 0 {
      FilterKeepsAll(s[1..], p);
    } else {
      FilterDropsOne(s[1..], p, k - 1);
    }
  }

  /** The index of the first element that satisfies `p` (`Array.prototype.find`). */
  function FindFirst<T>(s: seq<T>, p: T -> bool): (r: Option<nat>)
    ensures r.Some? ==> r.value < |s| && p(s[r.value]) && forall j :: 0 <= j < r.value ==> !p(s[j])
    ensures r.None? ==> forall j :: 0 <= j < |s| ==> !p(s[j])
  {
    if s == [] then None
    else if p(s[0]) then Some(0)
    else match FindFirst(s[1..], p)
      case None => None
      case Some(k) => Some(k + 1)
  }

  /** When every element `p` accepts also passes the filter `q`, searching the filtered sequence
      for `p` finds the same element as searching the whole sequence. */
  lemma {:induction false} FindFirstInFilter<T>(s: seq<T>, q: T -> bool, p: T -> bool)
    requires forall x :: p(x) ==> q(x)
    ensures FindFirst(Filter(s, q), p).Some? == FindFirst(s, p).Some?
    ensures FindFirst(s, p).Some? ==>
              Filter(s, q)[FindFirst(Filter(s, q), p).value] == s[FindFirst(s, p).value]
  {
    if s != [] {
      var rest := Filter(s[1..], q);
      FindFirstInFilter(s[1..], q, p);
      var a := FindFirst(s[1..], p);
      var b := FindFirst(rest, p);
      if p(s[0]) {
        assert Filter(s, q) == [s[0]] + rest;
        assert FindFirst([s[0]] + rest, p) == Some(0);
      } else if q(s[0]) {
        var f := [s[0]] + rest;
        assert Filter(s, q) == f;
        assert f[1..] == rest;
        assert FindFirst(f, p) == if b.None? then None else Some(b.value + 1);
        assert FindFirst(s, p) == if a.None? then None else Some(a.value + 1);
      } else {
        assert Filter(s, q) == [] + rest == rest;
        assert FindFirst(s, p) == if a.None? then None else Some(a.value + 1);
      }
    }
  }

  /** No two elements share a key. */
  ghost predicate KeysDistinct<T, K>(s: seq<T>, key: T -> K) {
    forall i, j :: 0 <= i < j < |s| ==> key(s[i]) != key(s[j])
  }

  /** Filtering keeps keys distinct. */
  lemma {:induction false} FilterKeepsKeysDistinct<T, K>(s: seq<T>, p: T -> bool, key: T -> K)
    requires KeysDistinct(s, key)
    ensures KeysDistinct(Filter(s, p), key)
  {
    if s != [] {
      var rest := Filter(s[1..], p);
      FilterKeepsKeysDistinct(s[1..], p, key);
      if p(s[0]) {
        var r := [s[0]] + rest;
        forall i, j | 0 <= i < j < |r| ensures key(r[i]) != key(r[j]) {
          if i == 0 {
            assert r[j] in s[1..];
          } else {
            assert r[i] == rest[i - 1] && r[j] == rest[j - 1];
          }
        }
      }
    }
  }

  /** Appending an element whose key is new keeps keys distinct. */
  lemma AppendKeepsKeysDistinct<T, K>(s: seq<T>, x: T, key: T -> K)
    requires KeysDistinct(s, key)
    requires forall i :: 0 <= i < |s| ==> key(s[i]) != key(x)
    ensures KeysDistinct(s + [x], key)
  {
    var r := s + [x];
    forall i, j | 0 <= i < j < |r| ensures key(r[i]) != key(r[j]) {
      assert r[i] == s[i];
    }
  }

  /** No element occurs twice. */
  ghost predicate Distinct<T>(s: seq<T>) {
    forall i, j :: 0 <= i < j < |s| ==> s[i] != s[j]
  }

  /** A sequence without repetitions has as many elements as its set. */
  lemma {:induction false} DistinctCard<T>(s: seq<T>)
    requires Distinct(s)
    ensures |set x | x in s| == |s|
  {
    if s != [] {
      var init := s[..|s| - 1];
      var last := s[|s| - 1];
      DistinctCard(init);
      assert s == init + [last];
      assert last !in init;
      assert (set x | x in s) == (set x | x in init) + {last};
    }
  }

  /** Two sequences with the same elements still have the same elements once the last element
      of the first is taken out of the second at one of its positions. */
  lemma MultisetRemoveLast<T>(a: seq<T>, b: seq<T>, p: nat)
    requires multiset(a) == multiset(b) && |a| > 0 && p < |b| && b[p] == a[|a| - 1]
    ensures multiset(a[..|a| - 1]) == multiset(b[..p] + b[p + 1..])
  {
    var x := a[|a| - 1];
    assert a == a[..|a| - 1] + [x];
    assert b == b[..p] + [x] + b[p + 1..];
    calc {
      multiset(a[..|a| - 1]);
      multiset(a) - multiset{x};
      multiset(b) - multiset{x};
      multiset(b[..p]) + multiset(b[p + 1..]);
      multiset(b[..p] + b[p + 1..]);
    }
  }

  /** The sequence in reverse order. */
  function Reverse<T>(s: seq<T>): (r: seq<T>)
    ensures |r| == |s|
    ensures forall i :: 0 <= i < |s| ==> r[i] == s[|s| - 1 - i]
  {
    if s == [] then [] else [s[|s| - 1]] + Reverse(s[..|s| - 1])
  }

  /** Reversing a sequence with one more element at the end puts that element first. */
  lemma ReverseSnoc<T>(s: seq<T>, x: T)
    ensures Reverse(s + [x]) == [x] + Reverse(s)
  {
    assert (s + [x])[..|s|] == s;
  }

}

=== FILE: store.dfy ===
/** The application's store and session (App.tsx): the client list, the document list and the
    authentication state, with the handlers that change them, and the rule that decides which
    documents a signed-in client sees. */
module Store {
  import opened Wrappers
  import opened Types
  import opened Text
  import opened Seqs

  // ---------------------------------------------------------------- passwords

  /** The characters a generated password is drawn from. */
  const Alphabet := "abcdefghijklmnopqrstuvwxyzABCDEFGHIJKLMNOPQRSTUVWXYZ0123456789!@#"

  const PasswordLength := 10

  /** A value `Math.random()` can return. */
  predicate IsRandom(x: real) {
    0.0 <= x < 1.0
  }

  /** The `Math.random()` values one password generation consumes. */
  predicate IsPasswordDraw(random: seq<real>) {
    |random| == PasswordLength && forall i :: 0 <= i < |random| ==> IsRandom(random[i])
  }

  /** `Math.floor(x * chars.length)`: the alphabet position one random value selects. */
  function DrawIndex(x: real): (k: nat)
    requires IsRandom(x)
    ensures k < |Alphabet|
  {
    assert |Alphabet| == 65;
    (x * 65.0).Floor
  }

  /** The password the generator builds from the given random values: exactly ten characters,
      each taken from the alphabet. */
  function PasswordFrom(random: seq<real>): (pass: string)
    requires IsPasswordDraw(random)
    ensures |pass| == PasswordLength
    ensures forall i :: 0 <= i < |pass| ==> pass[i] in Alphabet
  {
    seq(PasswordLength, i requires 0 <= i < PasswordLength => Alphabet[DrawIndex(random[i])])
  }

  /** `generatePassword`: appends one randomly chosen alphabet character ten times. */
  method GeneratePassword(random: seq<real>) returns (pass: string)
    requires IsPasswordDraw(random)
    ensures |pass| == PasswordLength
    ensures forall i :: 0 <= i < |pass| ==> pass[i] in Alphabet
    ensures pass == PasswordFrom(random)
  {
    pass := "";
    var i := 0;
    while i < PasswordLength
      invariant 0 <= i <= PasswordLength
      invariant |pass| == i
      invariant forall k :: 0 <= k < i ==> pass[k] == Alphabet[DrawIndex(random[k])]
    {
      pass := pass + [Alphabet[DrawIndex(random[i])]];
      i := i + 1;
    }
  }

  // ---------------------------------------------------------------- lookups

  function ClientId(c: Client): string { c.id }

  function NameKey(c: Client): string { Lower(c.name) }

  function DocumentId(d: DocumentFile): string { d.id }

  ghost predicate UniqueIds(clients: seq<Client>) {
    KeysDistinct(clients, ClientId)
  }

  /** No two clients have names that are equal ignoring case. */
  ghost predicate DistinctNames(clients: seq<Client>) {
    KeysDistinct(clients, NameKey)
  }

  ghost predicate UniqueDocumentIds(documents: seq<DocumentFile>) {
    KeysDistinct(documents, DocumentId)
  }

  /** No client has the id. */
  predicate IdFree(clients: seq<Client>, id: string) {
    forall j :: 0 <= j < |clients| ==> clients[j].id != id
  }

  /** The client's name equals `name` ignoring case. */
  predicate SameName(c: Client, name: string) {
    Lower(c.name) == Lower(name)
  }

  /** `k` is the first client whose name equals `name` ignoring case. */
  predicate IsFirstNamed(clients: seq<Client>, name: string, k: nat) {
    k < |clients| && SameName(clients[k], name) && forall j :: 0 <= j < k ==> !SameName(clients[j], name)
  }

  /** The first client whose name equals `name` ignoring case. */
  function FindByName(clients: seq<Client>, name: string): (r: Option<nat>)
    ensures r.Some? ==> IsFirstNamed(clients, name, r.value)
    ensures r.None? ==> forall j :: 0 <= j < |clients| ==> !SameName(clients[j], name)
  {
    FindFirst(clients, c => SameName(c, name))
  }

  /** The first client with the given id. */
  function FindById(clients: seq<Client>, id: string): (r: Option<nat>)
    ensures r.Some? ==> (r.value < |clients| && clients[r.value].id == id
                         && forall j :: 0 <= j < r.value ==> clients[j].id != id)
    ensures r.None? ==> forall j :: 0 <= j < |clients| ==> clients[j].id != id
  {
    FindFirst(clients, (c: Client) => c.id == id)
  }

  // ---------------------------------------------------------------- login

  const AdminName := "admin"
  const AdminPassword := "admin123"
  const LoginFailedMessage := "Credenciales incorrectas. Inténtalo de nuevo."

  /** The identifier is "admin" in any case and the password is exactly the admin secret. */
  predicate IsAdminCredential(identifier: string, password: string) {
    Lower(identifier) == AdminName && password == AdminPassword
  }

  datatype LoginOutcome = AdminSession | ClientSession(index: nat) | Rejected

  /** The decision `handleLogin` takes: the admin credential wins whatever the client list
      holds; otherwise the first client whose name equals the identifier ignoring case is
      accepted when its password is exactly the one given; anything else is rejected. */
  function Authenticate(clients: seq<Client>, identifier: string, password: string): (r: LoginOutcome)
    ensures r == AdminSession <==> IsAdminCredential(identifier, password)
    ensures r.ClientSession? ==> IsFirstNamed(clients, identifier, r.index) && clients[r.index].password == password
    ensures r.ClientSession? <==> (!IsAdminCredential(identifier, password)
                                   && exists k: nat :: IsFirstNamed(clients, identifier, k) && clients[k].password == password)
  {
    if IsAdminCredential(identifier, password) then AdminSession
    else match FindByName(clients, identifier)
      case Some(k) => if clients[k].password == password then ClientSession(k) else Rejected
      case None => Rejected
  }

  /** With names distinct ignoring case (what the store keeps), a client signs in exactly when
      some client has that name ignoring case and exactly that password, and the credential is
      not the admin one. */
  lemma ClientLoginIffCredentialsMatch(clients: seq<Client>, identifier: string, password: string)
    requires DistinctNames(clients)
    ensures Authenticate(clients, identifier, password).ClientSession? <==>
              (!IsAdminCredential(identifier, password)
               && exists k :: 0 <= k < |clients| && SameName(clients[k], identifier) && clients[k].password == password)
  {
    if k :| 0 <= k < |clients| && SameName(clients[k], identifier) && clients[k].password == password {
      forall j | 0 <= j < k ensures !SameName(clients[j], identifier) {
        assert NameKey(clients[j]) != NameKey(clients[k]);
      }
      assert IsFirstNamed(clients, identifier, k);
    }
  }

  /** Records the login time on every client with the given id; the others are kept as they were. */
  function StampLogin(clients: seq<Client>, id: string, now: string): seq<Client> {
    seq(|clients|, i requires 0 <= i < |clients| =>
      if clients[i].id == id then clients[i].(lastLogin := Some(now)) else clients[i])
  }

  /** With unique ids, a login stamp changes the signed-in client's last login and nothing else. */
  lemma LoginStampsOnlyThatClient(clients: seq<Client>, k: nat, now: string)
    requires UniqueIds(clients) && k < |clients|
    ensures StampLogin(clients, clients[k].id, now) == clients[k := clients[k].(lastLogin := Some(now))]
  {
    var r := StampLogin(clients, clients[k].id, now);
    forall i | 0 <= i < |clients| && i != k ensures r[i] == clients[i] {
      if i < k {
        assert ClientId(clients[i]) != ClientId(clients[k]);
      } else {
        assert ClientId(clients[k]) != ClientId(clients[i]);
      }
    }
  }

  // ---------------------------------------------------------------- clients and permissions

  /** The clients whose id differs from `id`, in their original order. */
  function RemoveClient(clients: seq<Client>, id: string): (r: seq<Client>)
    ensures |r| <= |clients|
    ensures forall c :: c in r <==> c in clients && c.id != id
  {
    Filter(clients, (c: Client) => c.id != id)
  }

  /** Replaces the permission list of every client with the given id; the others are kept. */
  function SetPermissions(clients: seq<Client>, id: string, ids: seq<string>): seq<Client> {
    seq(|clients|, i requires 0 <= i < |clients| =>
      if clients[i].id == id then clients[i].(viewableClientIds := ids) else clients[i])
  }

  /** Deleting a client keeps the other clients in their order: deleting from a concatenation
      deletes from each part. */
  lemma RemoveClientKeepsOrder(x: seq<Client>, y: seq<Client>, id: string)
    ensures RemoveClient(x + y, id) == RemoveClient(x, id) + RemoveClient(y, id)
  {
    FilterConcat(x, y, (c: Client) => c.id != id);
  }

  /** A permission update for an id no client has leaves the list as it was. */
  lemma {:induction false} UnknownIdPermissionsNoOp(clients: seq<Client>, id: string, ids: seq<string>)
    requires FindById(clients, id) == None
    ensures SetPermissions(clients, id, ids) == clients
  {
    var r := SetPermissions(clients, id, ids);
    assert |r| == |clients|;
    forall i | 0 <= i < |clients| ensures r[i] == clients[i] {
      assert clients[i].id != id;
    }
  }

  // ---------------------------------------------------------------- visibility

  /** The ids the client with id `viewer` has been granted (`client?.viewableClientIds || []`). */
  function Granted(clients: seq<Client>, viewer: string): seq<string> {
    match FindById(clients, viewer)
    case Some(k) => clients[k].viewableClientIds
    case None => []
  }

  /** `viewableIds`: the viewer's own id followed by the ids it has been granted. */
  function ViewableIds(clients: seq<Client>, viewer: string): (r: seq<string>)
    ensures forall id :: id in r <==> id == viewer || id in Granted(clients, viewer)
  {
    [viewer] + Granted(clients, viewer)
  }

  /** `viewableDocs`: the documents the viewer owns or has been granted, in store order. Only the
      viewer's own record is consulted, so grants are not followed transitively. */
  function ViewableDocs(clients: seq<Client>, documents: seq<DocumentFile>, viewer: string): (r: seq<DocumentFile>)
    ensures forall d :: d in r <==> d in documents && (d.clientId == viewer || d.clientId in Granted(clients, viewer))
  {
    var ids := ViewableIds(clients, viewer);
    Filter(documents, (d: DocumentFile) => d.clientId in ids)
  }

  /** After a permission update for an existing client, that client's grants are exactly the
      new list, whatever it holds (its own id included: nothing strips it here), and every
      other viewer's grants are unchanged. */
  lemma PermissionsGrantExactly(clients: seq<Client>, id: string, ids: seq<string>, other: string)
    requires FindById(clients, id).Some?
    requires other != id
    ensures Granted(SetPermissions(clients, id, ids), id) == ids
    ensures Granted(SetPermissions(clients, id, ids), other) == Granted(clients, other)
  {
    var r := SetPermissions(clients, id, ids);
    assert forall i :: 0 <= i < |r| ==> r[i].id == clients[i].id;
    var k := FindById(clients, id).value;
    assert FindById(r, id) == Some(k);
    match FindById(clients, other)
    case None =>
      assert FindById(r, other) == None;
    case Some(j) =>
      assert FindById(r, other) == Some(j);
  }

  /** No transitive expansion: if A has been granted only B, a document owned by a third client C
      stays invisible to A, whatever B has been granted. */
  lemma NoTransitiveVisibility(clients: seq<Client>, documents: seq<DocumentFile>, a: string, b: string, d: DocumentFile)
    requires FindById(clients, a).Some? && clients[FindById(clients, a).value].viewableClientIds == [b]
    requires d.clientId != a && d.clientId != b
    ensures d !in ViewableDocs(clients, documents, a)
  {
  }

  /** Removing client `removed` leaves every other viewer's grants exactly as they were. */
  lemma GrantedAfterRemove(clients: seq<Client>, removed: string, viewer: string)
    requires removed != viewer
    ensures Granted(RemoveClient(clients, removed), viewer) == Granted(clients, viewer)
  {
    FindFirstInFilter(clients, (c: Client) => c.id != removed, (c: Client) => c.id == viewer);
  }

  /** Deletion does not cascade: after client `removed` is deleted, any other viewer sees exactly
      the documents it saw before, including the deleted client's documents when it had been
      granted them. */
  lemma DeleteKeepsOtherViews(clients: seq<Client>, documents: seq<DocumentFile>, removed: string, viewer: string)
    requires removed != viewer
    ensures ViewableDocs(RemoveClient(clients, removed), documents, viewer) == ViewableDocs(clients, documents, viewer)
  {
    GrantedAfterRemove(clients, removed, viewer);
  }

  /** A prepended document comes first in a viewer's list when the viewer may see it, and the
      rest of the list is unchanged. */
  lemma AddDocumentView(clients: seq<Client>, documents: seq<DocumentFile>, doc: DocumentFile, viewer: string)
    ensures ViewableDocs(clients, [doc] + documents, viewer)
      == (if doc.clientId in ViewableIds(clients, viewer) then [doc] else []) + ViewableDocs(clients, documents, viewer)
  {
    var ids := ViewableIds(clients, viewer);
    FilterConcat([doc], documents, (d: DocumentFile) => d.clientId in ids);
  }

  /** Once a client named `name` has been appended, a second add with any case variant of the
      name finds that client. */
  lemma AddedClientFoundAgain(clients: seq<Client>, c: Client, name: string)
    requires FindByName(clients, c.name) == None
    requires Lower(name) == Lower(c.name)
    ensures FindByName(clients + [c], name) == Some(|clients|)
  {
    var s := clients + [c];
    forall j | 0 <= j < |clients| ensures !SameName(s[j], name) {
      assert s[j] == clients[j];
    }
    assert SameName(s[|clients|], name);
  }

  // ---------------------------------------------------------------- the store

  const DemoClientOne := "Construcciones S.A."
  const DemoClientTwo := "Talleres Mecánicos Paco"

  class PortalStore {
    var clients: seq<Client>
    var documents: seq<DocumentFile>
    var auth: AuthState
    var loginError: string

    /** Client ids are unique, client names are distinct ignoring case, document ids are unique. */
    ghost predicate Valid()
      reads this
    {
      UniqueIds(clients) && DistinctNames(clients) && UniqueDocumentIds(documents)
    }

    /** The application's initial state: two demonstration clients, no documents, signed out. */
    constructor (random1: seq<real>, random2: seq<real>)
      requires IsPasswordDraw(random1) && IsPasswordDraw(random2)
      ensures Valid()
      ensures clients == [Client("1", DemoClientOne, PasswordFrom(random1), None, [], None),
                          Client("2", DemoClientTwo, PasswordFrom(random2), None, [], None)]
      ensures documents == [] && auth == SignedOut && loginError == ""
    {
      var p1 := GeneratePassword(random1);
      var p2 := GeneratePassword(random2);
      clients := [Client("1", DemoClientOne, p1, None, [], None), Client("2", DemoClientTwo, p2, None, [], None)];
      documents := [];
      auth := SignedOut;
      loginError := "";
      assert |Lower(DemoClientOne)| != |Lower(DemoClientTwo)|;
    }

    /** `handleLogin`. */
    method Login(identifier: string, password: string, now: string)
      requires Valid()
      modifies this
      ensures Valid()
      ensures documents == old(documents)
      ensures match Authenticate(old(clients), identifier, password)
        case AdminSession =>
          auth == AuthState(true, Some(AdminRole), None) && clients == old(clients) && loginError == ""
        case ClientSession(k) =>
          auth == AuthState(true, Some(ClientRole), Some(old(clients)[k].id))
          && clients == StampLogin(old(clients), old(clients)[k].id, now) && loginError == ""
        case Rejected =>
          auth == old(auth) && clients == old(clients) && loginError == LoginFailedMessage
    {
      loginError := "";
      if IsAdminCredential(identifier, password) {
        auth := AuthState(true, Some(AdminRole), None);
        return;
      }
      var found := FindByName(clients, identifier);
      if found.Some? && clients[found.value].password == password {
        var id := clients[found.value].id;
        LoginStampsOnlyThatClient(clients, found.value, now);
        clients := StampLogin(clients, id, now);
        auth := AuthState(true, Some(ClientRole), Some(id));
        return;
      }
      loginError := LoginFailedMessage;
    }

    /** `handleLogout`. */
    method Logout()
      modifies this
      ensures auth == SignedOut && loginError == ""
      ensures clients == old(clients) && documents == old(documents)
    {
      auth := SignedOut;
      loginError := "";
    }

    /** `handleAddClient`: returns the existing client whose name equals `name` ignoring case,
        changing nothing, or appends a new client with the name as given, the fresh id, a
        generated password and no permissions. */
    method AddClient(name: string, newId: string, random: seq<real>) returns (client: Client)
      requires Valid()
      requires IdFree(clients, newId)
      requires IsPasswordDraw(random)
      modifies this
      ensures Valid()
      ensures documents == old(documents) && auth == old(auth) && loginError == old(loginError)
      ensures match FindByName(old(clients), name)
        case Some(k) => client == old(clients)[k] && clients == old(clients)
        case None =>
          client == Client(newId, name, PasswordFrom(random), None, [], None)
          && clients == old(clients) + [client]
    {
      var existing := FindByName(clients, name);
      if existing.Some? {
        return clients[existing.value];
      }
      var password := GeneratePassword(random);
      client := Client(newId, name, password, None, [], None);
      AppendKeepsKeysDistinct(clients, client, ClientId);
      AppendKeepsKeysDistinct(clients, client, NameKey);
      clients := clients + [client];
    }

    /** `handleDeleteClient`: removes every client with the id; documents are not touched. */
    method DeleteClient(id: string)
      requires Valid()
      modifies this
      ensures Valid()
      ensures clients == RemoveClient(old(clients), id)
      ensures documents == old(documents) && auth == old(auth) && loginError == old(loginError)
    {
      FilterKeepsKeysDistinct(clients, (c: Client) => c.id != id, ClientId);
      FilterKeepsKeysDistinct(clients, (c: Client) => c.id != id, NameKey);
      clients := RemoveClient(clients, id);
    }

    /** `handleUpdatePermissions`: replaces the permission list of the clients with that id. */
    method UpdatePermissions(clientId: string, viewableIds: seq<string>)
      requires Valid()
      modifies this
      ensures Valid()
      ensures clients == SetPermissions(old(clients), clientId, viewableIds)
      ensures documents == old(documents) && auth == old(auth) && loginError == old(loginError)
    {
      clients := SetPermissions(clients, clientId, viewableIds);
    }

    /** `handleAddDocument`: the new document goes first. */
    method AddDocument(doc: DocumentFile)
      requires Valid()
      requires forall i :: 0 <= i < |documents| ==> documents[i].id != doc.id
      modifies this
      ensures Valid()
      ensures documents == [doc] + old(documents)
      ensures clients == old(clients) && auth == old(auth) && loginError == old(loginError)
    {
      documents := [doc] + documents;
    }
  }
}

=== FILE: text.dfy ===
/** The string operations the portal relies on: `toLowerCase`, `includes` and `trim`. */
module Text {

  /** ASCII lower-casing of one character; every other character is left as it is. */
  function LowerChar(c: char): char {
    if 'A' <= c <= 'Z' then (c as int - 'A' as int + 'a' as int) as char else c
  }

  /** `String.prototype.toLowerCase`, restricted to ASCII letters. */
  function Lower(s: string): (r: string)
    ensures |r| == |s|
    ensures forall i :: 0 <= i < |s| ==> r[i] == LowerChar(s[i])
    ensures forall i :: 0 <= i < |r| ==> !('A' <= r[i] <= 'Z')
  {
    seq(|s|, i requires 0 <= i < |s| => LowerChar(s[i]))
  }

  /** Lower-casing twice is lower-casing once, so comparing lower-cased names is an equivalence
      that a second lower-casing does not change. */
  lemma LowerIdempotent(s: string)
    ensures Lower(Lower(s)) == Lower(s)
  {
    var l := Lower(s);
    forall i | 0 <= i < |l| ensures LowerChar(l[i]) == l[i] {
      assert !('A' <= l[i] <= 'Z');
    }
  }

  /** `t` occurs in `s` starting at position `i`. */
  predicate OccursAt(s: string, t: string, i: nat) {
    i + |t| <= |s| && s[i..i + |t|] == t
  }

  /** `s.includes(t)`: `t` occurs in `s` as a contiguous block. */
  predicate Contains(s: string, t: string) {
    exists i: nat | i <= |s| :: OccursAt(s, t, i)
  }

  /** Every string includes the empty string. */
  lemma ContainsEmpty(s: string)
    ensures Contains(s, "")
  {
    assert OccursAt(s, "", 0);
  }

  /** Every string includes itself. */
  lemma ContainsSelf(s: string)
    ensures Contains(s, s)
  {
    assert OccursAt(s, s, 0);
  }

  /** The characters `String.prototype.trim` removes: ASCII white space, line terminators,
      no-break space and the byte-order mark. */
  predicate IsSpace(c: char) {
    c == ' ' || c == '\t' || c == '\n' || c == '\r' || c == '\U{0B}' || c == '\U{0C}'
    || c == '\U{A0}' || c == '\U{FEFF}' || c == '\U{2028}' || c == '\U{2029}'
  }

  /** Drops the leading white space. */
  function TrimStart(s: string): (r: string)
    ensures |r| <= |s| && r == s[|s| - |r|..]
    ensures r == [] || !IsSpace(r[0])
    ensures forall i :: 0 <= i < |s| - |r| ==> IsSpace(s[i])
  {
    if s != [] && IsSpace(s[0]) then TrimStart(s[1..]) else s
  }

  /** Drops the trailing white space. */
  function TrimEnd(s: string): (r: string)
    ensures |r| <= |s| && r == s[..|r|]
    ensures r == [] || !IsSpace(r[|r| - 1])
    ensures forall i :: |r| <= i < |s| ==> IsSpace(s[i])
  {
    if s != [] && IsSpace(s[|s| - 1]) then TrimEnd(s[..|s| - 1]) else s
  }

  /** `r` is `s[a..b]` and everything of `s` outside that block is white space. */
  predicate StrippedAt(s: string, r: string, a: nat, b: nat) {
    a <= b <= |s| && r == s[a..b]
    && (forall i :: 0 <= i < a ==> IsSpace(s[i]))
    && (forall i :: b <= i < |s| ==> IsSpace(s[i]))
  }

  /** Stripping white space from the front of `s`, then from the back of the rest, leaves a block
      of `s` with only white space around it. */
  lemma StrippedBothEnds(s: string, t: string, r: string)
    requires |t| <= |s| && t == s[|s| - |t|..] && forall i :: 0 <= i < |s| - |t| ==> IsSpace(s[i])
    requires |r| <= |t| && r == t[..|r|] && forall i :: |r| <= i < |t| ==> IsSpace(t[i])
    ensures StrippedAt(s, r, |s| - |t|, |s| - |t| + |r|)
  {
    var a := |s| - |t|;
    forall i | a + |r| <= i < |s| ensures IsSpace(s[i]) {
      assert s[i] == t[i - a];
    }
  }

  /** `String.prototype.trim`: `s` with its leading and trailing white space removed. The result
      neither starts nor ends with white space, and it is empty exactly when `s` holds nothing but
      white space. */
  function Trim(s: string): (r: string)
    ensures exists a, b :: StrippedAt(s, r, a, b)
    ensures r == [] || (!IsSpace(r[0]) && !IsSpace(r[|r| - 1]))
    ensures r == [] <==> forall i :: 0 <= i < |s| ==> IsSpace(s[i])
  {
    var t := TrimStart(s);
    var r := TrimEnd(t);
    assert t != [] ==> r != [] && r[0] == t[0];
    StrippedBothEnds(s, t, r);
    r
  }
}

=== FILE: types.dfy ===
/** The portal's records: clients, documents, the data extracted from a document, and the
    session. Optional fields of the original records are `Option`s; a permission list that is
    absent is the empty list, which is how every reader of it treats it. */
module Types {
  import opened Wrappers

  datatype UserRole = AdminRole | ClientRole

  datatype Client = Client(
    id: string,
    name: string,
    password: string,
    email: Option<string>,
    viewableClientIds: seq<string>,  // ids of the other clients whose documents this one may see
    lastLogin: Option<string>)       // timestamp of the last successful login

  datatype Material = Material(name: string, units: real)

  /** What the document analysis extracts. `hours` and `materials` may be missing from the
      analysis response; the statistics treat a missing value as zero or as no lines. */
  datatype DocumentData = DocumentData(
    hours: Option<real>,
    isResolved: bool,
    materials: Option<seq<Material>>)

  datatype DocumentStatus = Processing | Assigned | Failed

  datatype DocumentFile = DocumentFile(
    id: string,
    clientId: string,
    fileName: string,
    uploadDate: string,
    fileData: string,   // base64 payload
    mimeType: string,
    status: DocumentStatus,
    data: Option<DocumentData>)

  datatype AuthState = AuthState(isAuthenticated: bool, role: Option<UserRole>, clientId: Option<string>)

  /** The session before login and after logout. */
  const SignedOut := AuthState(false, None, None)

  /** The result of analysing one uploaded file. */
  datatype AnalysisResult = AnalysisResult(clientName: string, confidence: real, data: DocumentData)

  /** The client name the analysis reports when it could not read the document. */
  const ReadErrorName := "Error de lectura"

  /** The client name that stands for "not recognised". */
  const UnknownName := "Desconocido"

  /** The result the analysis returns instead of failing. */
  const FailedAnalysis := AnalysisResult(ReadErrorName, 0.0, DocumentData(Some(0.0), false, Some([])))
}

=== FILE: wrappers.dfy ===
/** Optional values: JavaScript's `undefined` and `Array.prototype.find` misses. */
module Wrappers {

  datatype Option<+T> = None | Some(value: T) {

    /** The wrapped value, or `default` when there is none (JavaScript's `x || default`). */
    function GetOr(default: T): T {
      match this
      case Some(v) => v
      case None => default
    }

    /** The wrapped value as a sequence of at most one element. */
    function ToSeq(): (s: seq<T>)
      ensures |s| <= 1
      ensures Some? <==> |s| == 1
      ensures Some? ==> s[0] == value
    {
      match this
      case Some(v) => [v]
      case None => []
    }
  }
}
